=== FILE: README.md ===
# MobSurvivor game rules in Dafny

A model of the game rules inside the `MobSurvivor` React component
(`src/MobaCharacter.jsx`): a champion moves around a 1200 × 800 arena, waves of
mobs spawn from the edges and walk toward it, and it fights back with a basic
attack and four unlockable abilities (fireball, lightning, shield, dash).
Killing mobs pays xp and gold; xp levels the champion up, and certain levels
offer an ability to unlock.

The component keeps all of this in React state and mutates it from hooks,
animation frames and timers. Here the same state is one immutable `Session`
record, and every event is a pure step function over it:

| event in the component | step function |
|---|---|
| space, W, E, R and Q keys | `Game.Activate` (through `Launch`, `UseLightning`, `UseShield`, `UseDash`) |
| a frame of the movement loop | `Game.MoveTick` |
| a frame of the mob loop | `Game.MobTick` |
| a frame of the projectile loop | `Game.ProjectileTick` |
| the level-up effect | `Game.LevelUp`, re-run to a fixed point by `Game.SettleLevels` |
| the wave-end effect | `Game.WaveEnd` |
| the start-wave button | `Game.StartWave` (returns the spawn schedule) |
| a scheduled spawn firing | `Game.SpawnMob` |
| the shield timer running out | `Game.ShieldTimer` (through `Game.ExpireShield`) |
| an unlock button | `Game.UnlockAbility` |

Modules follow the component's concerns: `Geometry` (vectors, squared
distances, arena clamping), `MobTypes` (the archetype table and wave scaling),
`Entities` (mobs and projectiles), `Abilities` (cooldowns, locks, unlock
offers), `Targeting` (auto-aim), `Movement` (champion movement, dash, mob
approach), `Combat` (lightning, projectile hits, mob contact, the death
filter), `Waves` (wave size, spawn schedule, spawn kind and point) and `Game`
(the session and its steps). `Options` holds the `Option` type.

Conventions:

- Time is an integer number of milliseconds (`now`), frame length a real
  number of seconds (`dt`), coordinates are reals.
- Every distance comparison is made on squared distances, which is the same
  test because both sides are non-negative. Where the component needs a true
  length to normalise a direction (movement, dash, projectile velocity, mob
  approach), the caller passes it in as `dist` together with the fact
  `IsNorm(dist, v)`: `dist >= 0` and `dist * dist` equals the squared length.
- `Math.round` is the nearest integer with halves rounded up, `(x + 0.5).Floor`.
- `Math.random` draws are parameters in `[0, 1)`.
- `Valid` is the session invariant: the champion is inside the arena,
  `0 <= hp <= maxHp`, level, xp threshold and wave are at least 1, xp, gold
  and kill counters are non-negative, mob and projectile damage are
  non-negative, projectile radii are non-negative (so the squared-distance
  hit test is the true one), and mob and projectile ids are distinct and
  below their counters. Every step preserves it.

## Model

| member | source | states |
|---|---|---|
| Geometry.ClampToArena | src/MobaCharacter.jsx:394-395 | the clamped point always lies in [32.5, 1167.5] × [32.5, 767.5]; a point already there is left alone |
| Geometry.ClampToArenaCloser | src/MobaCharacter.jsx:394-395 | clamping never moves a point farther from any point of the arena |
| Geometry.ArenaConvex | src/MobaCharacter.jsx:394-395 | a point between two arena points is in the arena |
| Geometry.LerpRemaining | src/MobaCharacter.jsx:394-395 | moving the fraction k toward a target leaves (1-k)² of the squared distance |
| Geometry.LerpDistances | src/MobaCharacter.jsx:390-391 | moving the fraction k of a distance `dist` travels `k * dist` and leaves `dist - k * dist` to go |
| Geometry.LerpCloser | src/MobaCharacter.jsx:390-391 | a point part of the way toward a target is no farther from it than the start |
| Geometry.ClampTowardCloser | src/MobaCharacter.jsx:394-395 | moving one coordinate from inside the range toward any value, then clamping, never ends farther from that value |
| Geometry.ClampedLerpCloser | src/MobaCharacter.jsx:390-395 | moving from an arena point toward any point, then clamping to the arena, never ends farther from that point |
| MobTypes.ArchetypesWellFormed | src/MobaCharacter.jsx:51-100 | every archetype has positive radius, speed, hp, damage, range, cooldown, xp and gold |
| MobTypes.Round | src/MobaCharacter.jsx:157-159 | `Math.round` returns the integer within half a unit of its argument |
| MobTypes.ScaleStat | src/MobaCharacter.jsx:150-159 | a wave-scaled stat is the integer within half a unit of base × (1 + 0.15 (wave − 1)), equals the base stat at wave 1 and is never below it from wave 1 on |
| MobTypes.ScaleStatMonotone | src/MobaCharacter.jsx:150-159 | scaled stats never drop as the wave number grows |
| Abilities.Stamp | src/MobaCharacter.jsx:203-206 | a successful use sets only that ability's `lastUsed` to now, leaves the others alone, and puts it on cooldown |
| Abilities.CooldownLeft | src/MobaCharacter.jsx:687-690 | remaining cooldown is non-negative, at most the cooldown, zero exactly when the ability is ready, and exact: the ability is on cooldown at every instant before `now + r` and off it at `now + r` |
| Abilities.CooldownLeftMonotone | src/MobaCharacter.jsx:687-690 | remaining cooldown never rises and falls no faster than the clock |
| Abilities.CanLevelUpIffOffered | src/MobaCharacter.jsx:649-652 | `canLevelUp` holds exactly when some ability is offered at the current level, and at most one ever is |
| Abilities.Unlock | src/MobaCharacter.jsx:705-728 | unlocking sets the ability unlocked, keeps its cooldown and last use, and leaves every other ability unchanged |
| Abilities.UnlockWithdrawsOffer | src/MobaCharacter.jsx:705-728 | after the offered ability is unlocked, `canLevelUp` is false |
| Targeting.Nearest | src/MobaCharacter.jsx:172-183 | no target exactly for an empty list; otherwise a listed mob no other mob is strictly closer than, with every earlier mob strictly farther |
| Targeting.FirstNearestUnique | src/MobaCharacter.jsx:176-180 | the strict `<` makes the choice unique: the first of equally near mobs |
| Targeting.NearestIsTheFirstNearest | src/MobaCharacter.jsx:172-183 | the scan returns whichever mob is first-nearest, so the two definitions agree |
| Movement.StepRatio | src/MobaCharacter.jsx:390-391 | the step fraction is at most 1, equals 1 exactly when the frame's travel covers the distance, and otherwise covers exactly the frame's travel |
| Movement.MoveStep | src/MobaCharacter.jsx:380-396 | within 5 of the target the position stays and the target clears; otherwise the target stays and the new position is in the arena; between arena points a frame that does not arrive travels exactly 350·dt and ends `dist - 350·dt` from the target |
| Movement.Stride | src/MobaCharacter.jsx:390-395 | between arena points, a frame too short to arrive stays inside the arena and travels exactly 350·dt along the line |
| Movement.MoveStepTravel | src/MobaCharacter.jsx:340-396 | from inside the arena, toward any clicked point including one in the margin outside the arena, a frame moves the champion at most 350·dt, and exactly 350·dt when it does not arrive and the unclamped point is still inside the arena |
| Movement.MoveStepNeverOvershoots | src/MobaCharacter.jsx:390-396 | from inside the arena, a movement frame never ends farther from the target wherever the target is; an arena target is landed on when the frame's travel covers the distance |
| Movement.DashLanding | src/MobaCharacter.jsx:303-310 | a dash lands on a target within 200, and otherwise exactly 200 from the start and `dist - 200` short of the target |
| Movement.Approach | src/MobaCharacter.jsx:431-438 | a mob advancing toward the champion travels exactly `speed * dt` and ends at distance `dist - speed * dt` |
| Combat.Lightning | src/MobaCharacter.jsx:259-265 | every mob strictly within 250 loses exactly 50 hp, every other mob is unchanged, and nothing but hp changes |
| Combat.FirstTouch | src/MobaCharacter.jsx:477-485 | finds the first mob in list order the projectile touches, or none when it touches no mob |
| Combat.Strike | src/MobaCharacter.jsx:477-485 | only the first touched mob loses exactly the projectile's damage; with no touch the list is unchanged; no hp rises for non-negative damage |
| Combat.StrikeHp | src/MobaCharacter.jsx:477-485 | mob by mob, the first touched mob loses the projectile's damage and every other mob keeps its hp |
| Combat.FirstTouchIgnoresHp | src/MobaCharacter.jsx:477-481 | which mob a projectile strikes depends on mob positions and kinds, not on hp |
| Combat.ResolveProjectile | src/MobaCharacter.jsx:470-491 | a moved projectile survives exactly when it touched no mob and is over the canvas |
| Combat.ProjectilePass | src/MobaCharacter.jsx:467-492 | only mob hp changes, which never rises for non-negative damage; survivors are over the canvas and carry input ids |
| Combat.ProjectilePassExactly | src/MobaCharacter.jsx:467-492 | resolving projectiles one after another equals judging each against the frame's starting mobs: a projectile is dropped exactly when it struck a mob or left the canvas, kept ones stay in order, and each mob loses exactly the damage of the projectiles that struck it first |
| Combat.FlightIgnoresHp | src/MobaCharacter.jsx:470-491 | mob lists differing only in hp keep the same projectiles and take the same hits |
| Combat.NoHitsNoDamage | src/MobaCharacter.jsx:467-492 | when no moved projectile touches any mob, the mobs are unchanged and exactly the projectiles over the canvas remain, in order |
| Combat.ProjectilePassKeepsIdsFresh | src/MobaCharacter.jsx:470-491 | surviving projectiles keep distinct ids below the counter |
| Combat.ProjectilePassKeepsDamage | src/MobaCharacter.jsx:470-491 | surviving projectiles keep non-negative damage and radius |
| Combat.Engage | src/MobaCharacter.jsx:416-438 | a mob attacks exactly when in reach and strictly past its cooldown, stamping its attack time; in reach but cooling it is unchanged; out of reach only its position changes: it travels exactly `speed * dt` and ends `dist - speed * dt` from the champion |
| Combat.ContactPass | src/MobaCharacter.jsx:414-438 | each mob is engaged independently; the shield leaves hp unchanged; otherwise hp drops by the attacking mobs' damage, floored at 0 |
| Combat.ContactPassKeepsIdentity | src/MobaCharacter.jsx:414-438 | the contact pass keeps each mob's id, kind, hp, max hp and damage |
| Combat.DeathFilterPartitions | src/MobaCharacter.jsx:440-449 | every mob is kept or removed, never both, and kept plus removed counts add up |
| Combat.SurvivorsExactly | src/MobaCharacter.jsx:440-449 | a mob survives exactly when it was listed with hp > 0 |
| Combat.FallenExactly | src/MobaCharacter.jsx:440-449 | a mob is removed exactly when it was listed with hp <= 0 |
| Combat.SurvivorsAppend | src/MobaCharacter.jsx:440-449 | the filter works element by element, so survivors keep their order |
| Combat.NoSurvivors | src/MobaCharacter.jsx:440-449 | when every mob is dead the list empties |
| Combat.SurvivorsKeepIdsFresh | src/MobaCharacter.jsx:440-449 | survivors keep distinct ids below the counter |
| Combat.SameRosterSameSurvivors | src/MobaCharacter.jsx:440-448 | the death filter decides on hp alone: lists with the same ids and hp keep the same mobs in order |
| Combat.SameRosterSameBounty | src/MobaCharacter.jsx:441-447 | bounties are credited by kind alone: lists with the same kinds and hp pay the same |
| Combat.TallyCountsKills | src/MobaCharacter.jsx:442-447 | one kill is credited per removed mob |
| Combat.TallyAtLeast | src/MobaCharacter.jsx:442-444 | each removed mob pays at least 10 xp and 5 gold |
| Combat.TallyAppend | src/MobaCharacter.jsx:442-447 | rewards add up one removed mob at a time |
| Combat.Reap | src/MobaCharacter.jsx:440-449 | one pass over the list yields exactly the survivors and the rewards of the removed mobs |
| Waves.WaveSize | src/MobaCharacter.jsx:105 | a wave has at least 5 mobs, exactly 5 for wave 1 |
| Waves.WaveSizeGrows | src/MobaCharacter.jsx:105 | each wave has three more mobs than the one before |
| Waves.SpawnOffsets | src/MobaCharacter.jsx:110-114 | one spawn per mob, the first at 0 and each 500 ms after the previous |
| Waves.SpawnOffsetsIncreasing | src/MobaCharacter.jsx:110-114 | spawn times strictly increase |
| Waves.PickKind | src/MobaCharacter.jsx:122-136 | waves 1-2 are all slimes, waves up to 10 have no demon, later waves no slime, with the per-tier thresholds 0.6; 0.4 and 0.8; 0.3 and 0.6 |
| Waves.Side | src/MobaCharacter.jsx:139 | the side index is 0, 1, 2 or 3, the integer part of four times the draw |
| Waves.SpawnPoint | src/MobaCharacter.jsx:139-147 | a spawn point is off the canvas, 50 beyond one edge, and along that edge within the canvas span; a side draw below 0.25 picks the top edge, below 0.5 the right, below 0.75 the bottom and otherwise the left (each an if-and-only-if), and the coordinate draw times the canvas width (top, bottom) or height (right, left) places it along the edge |
| Waves.Spawn | src/MobaCharacter.jsx:139-161 | a new mob has the next id, the picked kind, the spawn point 50 beyond one edge, hp and damage equal to the archetype's scaled by 1 + 0.15 (wave − 1) and rounded, full hp and attack time 0; from wave 1 on its stats are at least the archetype's, and exactly them at wave 1 |
| Game.InitialValid | src/MobaCharacter.jsx:6-33 | the starting session satisfies the invariant |
| Game.Heading | src/MobaCharacter.jsx:185-195 | a projectile's velocity points along the aim with exactly the given speed |
| Game.Shot | src/MobaCharacter.jsx:190-200 | a shot starts at the champion with the next id, the given damage, radius and kind, and moves at the given speed toward the aimed mob |
| Game.Launch | src/MobaCharacter.jsx:172-206 | with no mob nothing changes; otherwise one projectile aimed at the first nearest mob is appended, the id counter advances, the ability is stamped, and nothing else changes |
| Game.ShootProjectile | src/MobaCharacter.jsx:167-207 | when ready with a mob present, one shot of damage 10 + 2·level and radius 8 is appended at the champion with the next id, aimed at the first nearest mob, and the basic attack is stamped; nothing else changes; otherwise nothing changes |
| Game.UseFireball | src/MobaCharacter.jsx:210-251 | when ready with a mob present, one fireball of damage 30 and radius 15 is appended at the champion with the next id, aimed at the first nearest mob, and the fireball is stamped; nothing else changes; otherwise nothing changes |
| Game.UseLightning | src/MobaCharacter.jsx:254-272 | when ready, every mob strictly within 250 of the champion loses 50 hp, nothing else about the mobs changes, and only the lightning is stamped; otherwise nothing changes |
| Game.UseShield | src/MobaCharacter.jsx:275-293 | when ready, the shield goes up and the shield is stamped, so it cannot be raised again at once; nothing else changes |
| Game.ExpireShield | src/MobaCharacter.jsx:286-292 | the shield goes down and nothing else changes; the component fires this 3000 ms (`ShieldDuration`) after raising the shield |
| Game.ShieldTimer | src/MobaCharacter.jsx:286-292 | before `ShieldDuration` (3000 ms) has passed since the shield was raised nothing changes; from then on the shield is down |
| Game.ShieldLasts | src/MobaCharacter.jsx:275-292 | a shield raised at time t is still up at t + d exactly when d < 3000 |
| Game.ShieldGuardsHp | src/MobaCharacter.jsx:275-293 | while the shield is up a mob frame keeps hp; after it expires the attacking mobs' damage lands again, floored at 0 |
| Game.UseDash | src/MobaCharacter.jsx:296-320 | not ready or without a target nothing changes; otherwise the champion lands on the arena clamp of the point `min(200, dist)` along the line to the target, so an arena target within 200 is reached exactly, and only the dash is stamped; a dash never leaves the arena and changes only position and abilities |
| Game.Activate | src/MobaCharacter.jsx:167-320 | locked or cooling down: no change; ready with nothing to act on: no change; otherwise only that ability's `lastUsed` becomes now; only lightning touches mobs, only the shield the shield flag, only the dash the position, only the two shots the projectiles and id counter, and nothing else ever changes |
| Game.CooldownScenario | src/MobaCharacter.jsx:169 | a 3000 ms cooldown stamped at 0 blocks the ability at 2000 and lets it through at 3001 |
| Game.MoveTick | src/MobaCharacter.jsx:371-396 | only position and target change; within 5 of the target the target clears and the position stays; otherwise the target is kept; the champion stays in the arena and, from inside it, never ends farther from the target |
| Game.MoveTickAdvances | src/MobaCharacter.jsx:340-396 | between arena points, a frame that does not arrive keeps the target and advances exactly 350·dt toward it; from inside the arena toward any target, margin clicks included, the frame moves at most 350·dt, and exactly that while the unclamped point stays in the arena |
| Game.MobTick | src/MobaCharacter.jsx:414-449 | only living mobs remain; kills and wave kills grow by the number removed; xp and gold grow by at least a slime's bounty per kill; the shield keeps hp; hp stays non-negative |
| Game.MobTickSettles | src/MobaCharacter.jsx:414-449 | the mobs left are exactly the engaged mobs (each moved toward the champion or attack-stamped) that entered alive, in order; xp and gold grow by exactly the dead mobs' archetype bounties and kills by their number; without the shield hp drops by the attackers' damage, floored at 0 |
| Game.ProjectileTick | src/MobaCharacter.jsx:467-492 | the projectiles kept are exactly those that, after a frame of flight, touch no mob and are over the canvas, in order; each mob loses exactly the damage of the projectiles that struck it first and nothing else about it changes |
| Game.NextThreshold | src/MobaCharacter.jsx:507 | the next threshold is (3t + 1) / 2 and strictly larger than t for t >= 1 |
| Game.LevelUp | src/MobaCharacter.jsx:503-511 | below the threshold nothing changes; otherwise one level, surplus xp carried over and non-negative, the threshold becomes (3t + 1) / 2 and grows, and hp and max hp gain 20, so hp <= max hp is kept |
| Game.SettleLevels | src/MobaCharacter.jsx:503-511 | repeated level-ups end with xp below the threshold; a level is gained whenever xp reached the threshold; with k levels gained, xp pays exactly the k successive thresholds (each the last times 1.5, rounded) and the threshold is the k-th one after the start; 20 hp and max hp per level; nothing else changes |
| Game.WaveEnd | src/MobaCharacter.jsx:514-518 | the wave goes inactive exactly when it was active, the kills reached its size and no mob is left |
| Game.StartWave | src/MobaCharacter.jsx:103-114 | only when the button is enabled (line 750: no wave running, champion alive), the wave becomes active with its size as target and no kills, one spawn is scheduled per mob, and the wave-end check does not end it at once |
| Game.SpawnMob | src/MobaCharacter.jsx:118-164 | the mob appended is exactly the spawn for the session's wave and next id, of the wave's picked kind and off the canvas; the id counter advances and nothing else changes |
| Game.UnlockAbility | src/MobaCharacter.jsx:705-728 | unlocking the offered ability withdraws every offer, leaves the other abilities alone, and makes it ready exactly when it is off cooldown |
| Game.ActivatePreservesValid | src/MobaCharacter.jsx:167-320 | every ability keeps the session invariant |
| Game.MoveTickPreservesValid | src/MobaCharacter.jsx:380-396 | a movement frame keeps the session invariant |
| Game.MobTickPreservesValid | src/MobaCharacter.jsx:414-449 | a mob frame keeps the session invariant: 0 <= hp <= max hp, credits non-negative, ids fresh |
| Game.ProjectileTickPreservesValid | src/MobaCharacter.jsx:467-492 | a projectile frame keeps the session invariant |
| Game.SettleLevelsPreservesValid | src/MobaCharacter.jsx:503-511 | levelling up keeps the session invariant |
| Game.WaveStepsPreserveValid | src/MobaCharacter.jsx:103-164 | wave end, wave start, spawning, shield expiry and unlocking keep the session invariant |
| Game.SlimeDiesToTwoShots | src/MobaCharacter.jsx:474-491 | a wave-1 slime hit by two level-1 basic shots drops to 8 hp, then dies and pays 10 xp and 5 gold once |
| Game.FirstWaveScenario | src/MobaCharacter.jsx:103-114 | wave 1 schedules spawns at 0, 500, 1000, 1500, 2000; a started wave only ends once its kill target is met with the arena empty |
| Game.ShieldScenario | src/MobaCharacter.jsx:421-429 | a blocked hit still stamps the mob's attack time, so it cannot hit again right after the shield drops |
| Game.ClearingTheField | src/MobaCharacter.jsx:440-449 | when every mob is dead one mob frame removes them all and credits one kill and one wave kill each |

## Left out

- React plumbing: `useState`, effect dependency arrays and `useRef` counters become fields of the session record; each effect is a step function the caller applies.
- The projectile loop calls `setMobs` inside the `setProjectiles` updater (lines 477-485), so the real order of the two updates depends on React's scheduling. The model uses the intended semantics: projectiles resolve in list order, each against the mobs the previous one left, and each hits at most the first mob it touches.
- Timers and frame loops: `requestAnimationFrame`, `performance.now()` and `setTimeout`. Time is a parameter, the spawn stagger is returned as a list of offsets, and the shield timer is the explicit step `Game.ShieldTimer`, applied by the caller at a time of its choosing.
- Randomness: `Math.random` draws are parameters in [0, 1).
- Floating point: `Math.sqrt` results are supplied by the caller, and all arithmetic is on exact reals. The 0.15 wave multiplier is therefore exact, with no binary rounding before `Math.round`.
- Zero-length directions: the component divides by a zero distance when the dash target equals the position (lines 308-309) or when the aimed mob sits exactly on the champion (basic shot lines 194-195, fireball lines 238-239), giving NaN. The model instead lands the dash on the target and gives such a projectile zero velocity.
- Rendering, the HUD, buttons other than the unlock buttons, mouse and keyboard handlers, and `window.location.reload` are not modelled.
- The shield ability's own `active` flag is written (lines 283, 290) but never read: the mob loop, the rendering and the shield button all read `shieldActive` (lines 423, 612, 780). The model keeps only `shieldActive`.
- No wave-advance step: the component never calls `setWave`.
- Projectiles have no activation delay in this component, so none is modelled.
- Mob hp is not claimed to stay non-negative: lightning and projectiles subtract without a floor, and only the death filter removes mobs.
- Game.MobTick: states xp and gold credits as at least 10 and 5 per kill rather than the exact archetype sums, the survivors by liveness rather than as the engaged mobs, and the unshielded hp loss not at all; the exact statements are carried by Game.MobTickSettles, because as ensures of the frame function they exhaust the solver.
- Game.MoveTick: the exact advance of `MoveSpeed * dt` between arena points, and the travel bound toward targets outside the arena, are stated by Game.MoveTickAdvances rather than by the frame function itself.
- Movement.MoveStep: the travel toward a target in the margin outside the arena is stated by Movement.MoveStepTravel rather than by the function itself, because as its ensures they exhaust the solver.

=== FILE: abilities.dfy ===
/** The five abilities, their gating by lock and cooldown, the cooldown
    readout shown for the basic attack, and the level-gated unlock offers. */
module Abilities {

  datatype AbilityName = BasicAttack | Fireball | Lightning | Shield | Dash

  /** `lastUsed` and `cooldown` are in milliseconds. The basic attack has
      no lock; its `unlocked` flag is never consulted. */
  datatype Ability = Ability(unlocked: bool, cooldown: int, lastUsed: int)

  const FireballDamage: int := 30
  const LightningDamage: int := 50
  const ShieldDuration: int := 3000
  const DashDistance: real := 200.0

  datatype AbilitySet = AbilitySet(
    basic: Ability,
    fireball: Ability,
    lightning: Ability,
    shield: Ability,
    dash: Ability)
  {
    function Get(n: AbilityName): Ability {
      match n
      case BasicAttack => basic
      case Fireball => fireball
      case Lightning => lightning
      case Shield => shield
      case Dash => dash
    }

    /** Replaces one ability and leaves the other four as they were. */
    function With(n: AbilityName, a: Ability): (r: AbilitySet)
      ensures r.Get(n) == a
      ensures forall m :: m != n ==> r.Get(m) == Get(m)
    {
      match n
      case BasicAttack => this.(basic := a)
      case Fireball => this.(fireball := a)
      case Lightning => this.(lightning := a)
      case Shield => this.(shield := a)
      case Dash => this.(dash := a)
    }
  }

  /** The abilities at session start: nothing unlocked, nothing used. */
  function InitialAbilities(): AbilitySet {
    AbilitySet(
      Ability(true, 3000, 0),
      Ability(false, 2000, 0),
      Ability(false, 3000, 0),
      Ability(false, 5000, 0),
      Ability(false, 1500, 0))
  }

  /** A locked ability ignores activation; the basic attack is never locked. */
  predicate Locked(s: AbilitySet, n: AbilityName) {
    n != BasicAttack && !s.Get(n).unlocked
  }

  /** `now - lastUsed < cooldown`. */
  predicate OnCooldown(a: Ability, now: int) {
    now - a.lastUsed < a.cooldown
  }

  /** The gate every ability passes before it has any effect. */
  predicate Ready(s: AbilitySet, n: AbilityName, now: int) {
    !Locked(s, n) && !OnCooldown(s.Get(n), now)
  }

  /** Records a successful use: that ability's `lastUsed` becomes `now`,
      and nothing else changes. */
  function Stamp(s: AbilitySet, n: AbilityName, now: int): (r: AbilitySet)
    ensures r.Get(n) == s.Get(n).(lastUsed := now)
    ensures forall m :: m != n ==> r.Get(m) == s.Get(m)
    ensures !OnCooldown(s.Get(n), now) && s.Get(n).cooldown > 0 ==> OnCooldown(r.Get(n), now)
  {
    s.With(n, s.Get(n).(lastUsed := now))
  }

  /** Milliseconds until the ability is usable again, never negative: it
      is off cooldown `r` ms from now and on cooldown at every instant
      before that. */
  function CooldownLeft(a: Ability, now: int): (r: int)
    ensures r >= 0
    ensures now >= a.lastUsed ==> r <= a.cooldown || r == 0
    ensures r == 0 <==> !OnCooldown(a, now)
    ensures !OnCooldown(a, now + r)
    ensures forall t :: now <= t < now + r ==> OnCooldown(a, t)
  {
    var timeSince := now - a.lastUsed;
    if a.cooldown - timeSince > 0 then a.cooldown - timeSince else 0
  }

  /** The readout only counts down: a later clock never shows more time left. */
  lemma CooldownLeftMonotone(a: Ability, t1: int, t2: int)
    requires t1 <= t2
    ensures CooldownLeft(a, t2) <= CooldownLeft(a, t1)
    ensures CooldownLeft(a, t1) - CooldownLeft(a, t2) <= t2 - t1
  {
  }

  /** The level at which an ability is offered for unlocking. The basic
      attack has no unlock level; `Offered` never offers it, so its entry
      is never consulted. */
  function UnlockLevel(n: AbilityName): int {
    match n
    case BasicAttack => 1
    case Fireball => 3
    case Lightning => 5
    case Shield => 7
    case Dash => 10
  }

  /** Ability `n` is offered at this level: it is lockable, the level is its
      unlock level and it is still locked. */
  predicate Offered(level: int, s: AbilitySet, n: AbilityName) {
    n != BasicAttack && level == UnlockLevel(n) && !s.Get(n).unlocked
  }

  /** The `canLevelUp` flag, as the game computes it. */
  predicate CanLevelUp(level: int, s: AbilitySet) {
    || (level == 3 && !s.fireball.unlocked)
    || (level == 5 && !s.lightning.unlocked)
    || (level == 7 && !s.shield.unlocked)
    || (level == 10 && !s.dash.unlocked)
  }

  /** `canLevelUp` holds exactly when some ability is on offer, and then
      exactly one is. */
  lemma CanLevelUpIffOffered(level: int, s: AbilitySet)
    ensures CanLevelUp(level, s) <==> exists n :: Offered(level, s, n)
    ensures forall n, m :: Offered(level, s, n) && Offered(level, s, m) ==> n == m
  {
    if CanLevelUp(level, s) {
      if level == 3 { assert Offered(level, s, Fireball); }
      else if level == 5 { assert Offered(level, s, Lightning); }
      else if level == 7 { assert Offered(level, s, Shield); }
      else { assert Offered(level, s, Dash); }
    }
  }

  /** An unlock button's effect: the ability becomes unlocked, keeping its
      cooldown and last use. */
  function Unlock(s: AbilitySet, n: AbilityName): (r: AbilitySet)
    ensures r.Get(n).unlocked
    ensures r.Get(n) == s.Get(n).(unlocked := true)
    ensures n != BasicAttack ==> !Locked(r, n)
    ensures forall m :: m != n ==> r.Get(m) == s.Get(m)
  {
    s.With(n, s.Get(n).(unlocked := true))
  }

  /** Taking the offer withdraws it: after unlocking the offered ability,
      `canLevelUp` is false at that level. */
  lemma UnlockWithdrawsOffer(level: int, s: AbilitySet, n: AbilityName)
    requires Offered(level, s, n)
    ensures !CanLevelUp(level, Unlock(s, n))
  {
  }
}

=== FILE: combat.dfy ===
/** Combat resolution: the lightning area effect, projectile hits, mob
    contact attacks on the champion, and the death filter with its rewards. */
module Combat {

  import opened Options
  import opened Geometry
  import opened MobTypes
  import opened Entities
  import Abilities
  import Movement

  /** Reach of the lightning strike around the champion. */
  const LightningRadius: real := 250.0

  // ---------------------------------------------------------------------
  // Lightning

  /** Every mob strictly within `LightningRadius` of `p` loses
      `LightningDamage` hp at once; no mob is removed, reordered or otherwise
      changed, and hp is not floored. */
  function Lightning(mobs: seq<Mob>, p: Vec): (r: seq<Mob>)
    ensures SameButHp(mobs, r)
    ensures forall i :: 0 <= i < |mobs| ==>
              r[i].hp == mobs[i].hp - (if Within(mobs[i].pos, p, LightningRadius) then Abilities.LightningDamage else 0)
  {
    if |mobs| == 0 then []
    else
      var m := mobs[0];
      var m' := if Within(m.pos, p, LightningRadius) then m.(hp := m.hp - Abilities.LightningDamage) else m;
      [m'] + Lightning(mobs[1..], p)
  }

  // ---------------------------------------------------------------------
  // Projectiles

  /** Centre distance strictly below the sum of the two radii. */
  predicate Touches(q: Projectile, m: Mob) {
    Within(q.pos, m.pos, TypeOf(m.kind).radius + q.radius)
  }

  /** The first mob in list order that the projectile touches, if any. */
  function FirstTouch(mobs: seq<Mob>, q: Projectile): (r: Option<nat>)
    ensures r.None? <==> forall i :: 0 <= i < |mobs| ==> !Touches(q, mobs[i])
    ensures r.Some? ==> r.value < |mobs| && Touches(q, mobs[r.value])
    ensures r.Some? ==> forall j :: 0 <= j < r.value ==> !Touches(q, mobs[j])
  {
    if |mobs| == 0 then None
    else if Touches(q, mobs[0]) then Some(0)
    else
      match FirstTouch(mobs[1..], q)
      case None => None
      case Some(i) => Some(i + 1)
  }

  /** A projectile strikes at most one mob: the first one it touches loses
      exactly the projectile's damage and every other mob is unchanged. */
  function Strike(mobs: seq<Mob>, q: Projectile): (r: seq<Mob>)
    ensures SameButHp(mobs, r)
    ensures (forall i :: 0 <= i < |mobs| ==> !Touches(q, mobs[i])) ==> r == mobs
    ensures forall i :: 0 <= i < |mobs| && Touches(q, mobs[i]) && (forall j :: 0 <= j < i ==> !Touches(q, mobs[j])) ==>
              r == mobs[i := mobs[i].(hp := mobs[i].hp - q.damage)]
    ensures q.damage >= 0 ==> HpNotRaised(mobs, r)
  {
    match FirstTouch(mobs, q)
    case None => mobs
    case Some(i) => mobs[i := mobs[i].(hp := mobs[i].hp - q.damage)]
  }

  /** Mob by mob: the first touched mob loses the projectile's damage and
      every other mob keeps its hp. */
  lemma StrikeHp(mobs: seq<Mob>, q: Projectile)
    ensures forall i :: 0 <= i < |mobs| ==>
              Strike(mobs, q)[i].hp == mobs[i].hp - (if FirstTouch(mobs, q) == Some(i) then q.damage else 0)
  {
  }

  /** One frame of flight. */
  function Advance(q: Projectile, dt: real): Projectile {
    q.(pos := Add(q.pos, Scale(q.vel, dt)))
  }

  datatype Resolution = Resolution(survivor: Option<Projectile>, mobs: seq<Mob>)

  /** One projectile's frame: it flies, strikes the first mob it touches, and
      survives only if it struck nothing and is still over the canvas. */
  function ResolveProjectile(q: Projectile, mobs: seq<Mob>, dt: real): (r: Resolution)
    ensures r.survivor.Some? <==>
              (forall i :: 0 <= i < |mobs| ==> !Touches(Advance(q, dt), mobs[i])) && InCanvas(Advance(q, dt).pos)
    ensures r.survivor.Some? ==> r.survivor.value == Advance(q, dt)
    ensures r.mobs == Strike(mobs, Advance(q, dt))
  {
    var moved := Advance(q, dt);
    var hit := FirstTouch(mobs, moved);
    Resolution(if hit.None? && InCanvas(moved.pos) then Some(moved) else None, Strike(mobs, moved))
  }

  function ProjectileIds(ps: seq<Projectile>): seq<nat> {
    seq(|ps|, i requires 0 <= i < |ps| => ps[i].id)
  }

  datatype Volley = Volley(projectiles: seq<Projectile>, mobs: seq<Mob>)

  /** A whole frame of projectiles, resolved in list order, each against the
      mobs as the previous ones left them. Survivors are over the canvas and
      keep their ids; mobs change only in hp, which never rises while
      projectile damage is non-negative. */
  function ProjectilePass(ps: seq<Projectile>, mobs: seq<Mob>, dt: real): (r: Volley)
    ensures SameButHp(mobs, r.mobs)
    ensures |r.projectiles| <= |ps|
    ensures forall k :: 0 <= k < |r.projectiles| ==> InCanvas(r.projectiles[k].pos)
    ensures forall k :: 0 <= k < |r.projectiles| ==> r.projectiles[k].id in ProjectileIds(ps)
    ensures (forall k :: 0 <= k < |ps| ==> ps[k].damage >= 0) ==> HpNotRaised(mobs, r.mobs)
    decreases |ps|
  {
    if |ps| == 0 then Volley([], mobs)
    else
      var first := ResolveProjectile(ps[0], mobs, dt);
      var rest := ProjectilePass(ps[1..], first.mobs, dt);
      SameButHpTransitive(mobs, first.mobs, rest.mobs);
      assert (forall k :: 0 <= k < |ps| ==> ps[k].damage >= 0) ==> HpNotRaised(mobs, rest.mobs) by {
        if forall k :: 0 <= k < |ps| ==> ps[k].damage >= 0 {
          assert forall k :: 0 <= k < |ps[1..]| ==> ps[1..][k].damage >= 0 by {
            forall k | 0 <= k < |ps[1..]| ensures ps[1..][k].damage >= 0 {
              assert ps[1..][k] == ps[k + 1];
            }
          }
          assert Advance(ps[0], dt).damage >= 0;
          HpNotRaisedTransitive(mobs, first.mobs, rest.mobs);
        }
      }
      assert forall k :: 0 <= k < |rest.projectiles| ==> rest.projectiles[k].id in ProjectileIds(ps) by {
        forall k | 0 <= k < |rest.projectiles|
          ensures rest.projectiles[k].id in ProjectileIds(ps)
        {
          var j :| 0 <= j < |ps[1..]| && ProjectileIds(ps[1..])[j] == rest.projectiles[k].id;
          assert ProjectileIds(ps)[j + 1] == rest.projectiles[k].id;
        }
      }
      match first.survivor
      case None => rest
      case Some(q) =>
        assert ProjectileIds(ps)[0] == q.id;
        Volley([q] + rest.projectiles, rest.mobs)
  }

  /** Which mob a projectile strikes depends only on where the mobs are and
      what they are, not on their hp. */
  lemma FirstTouchIgnoresHp(a: seq<Mob>, b: seq<Mob>, q: Projectile)
    requires SameButHp(a, b)
    ensures FirstTouch(a, q) == FirstTouch(b, q)
  {
    assert forall i :: 0 <= i < |a| ==> (Touches(q, a[i]) <==> Touches(q, b[i])) by {
      forall i | 0 <= i < |a| ensures Touches(q, a[i]) <==> Touches(q, b[i]) {
        assert b[i] == a[i].(hp := b[i].hp);
      }
    }
  }

  /** The projectiles a frame keeps, judged against the mobs as they stood at
      the start of the frame: each one flies one frame and stays, in order,
      exactly when it touches no mob and is over the canvas. */
  function Flight(ps: seq<Projectile>, mobs: seq<Mob>, dt: real): seq<Projectile>
    decreases |ps|
  {
    if |ps| == 0 then []
    else
      var q := Advance(ps[0], dt);
      (if FirstTouch(mobs, q).None? && InCanvas(q.pos) then [q] else []) + Flight(ps[1..], mobs, dt)
  }

  /** The damage mob `i` takes in a frame, judged against the mobs as they
      stood at the start of the frame: the sum of the damage of every
      projectile whose first touched mob is `i`. */
  function HitDamage(ps: seq<Projectile>, mobs: seq<Mob>, dt: real, i: int): int
    decreases |ps|
  {
    if |ps| == 0 then 0
    else
      var q := Advance(ps[0], dt);
      (if FirstTouch(mobs, q) == Some(i) then q.damage else 0) + HitDamage(ps[1..], mobs, dt, i)
  }

  /** Mobs that differ only in hp keep the same projectiles and take the
      same hits. */
  lemma {:induction false} FlightIgnoresHp(ps: seq<Projectile>, a: seq<Mob>, b: seq<Mob>, dt: real)
    requires SameButHp(a, b)
    ensures Flight(ps, a, dt) == Flight(ps, b, dt)
    ensures forall i :: HitDamage(ps, a, dt, i) == HitDamage(ps, b, dt, i)
    decreases |ps|
  {
    if |ps| > 0 {
      FirstTouchIgnoresHp(a, b, Advance(ps[0], dt));
      FlightIgnoresHp(ps[1..], a, b, dt);
    }
  }

  /** Resolving the projectiles one after another is the same as judging
      each against the mobs as they stood at the start of the frame: a
      projectile is dropped exactly when it struck a mob or left the canvas,
      and each mob loses exactly the damage of the projectiles that struck it. */
  lemma {:induction false} ProjectilePassExactly(ps: seq<Projectile>, mobs: seq<Mob>, dt: real)
    ensures ProjectilePass(ps, mobs, dt).projectiles == Flight(ps, mobs, dt)
    ensures forall i :: 0 <= i < |mobs| ==>
              ProjectilePass(ps, mobs, dt).mobs[i].hp == mobs[i].hp - HitDamage(ps, mobs, dt, i)
    decreases |ps|
  {
    if |ps| > 0 {
      var q := Advance(ps[0], dt);
      var first := ResolveProjectile(ps[0], mobs, dt);
      ProjectilePassExactly(ps[1..], first.mobs, dt);
      FlightIgnoresHp(ps[1..], mobs, first.mobs, dt);
      StrikeHp(mobs, q);
      var rest := ProjectilePass(ps[1..], first.mobs, dt);
      assert first.survivor.Some? <==> FirstTouch(mobs, q).None? && InCanvas(q.pos);
      assert ProjectilePass(ps, mobs, dt).mobs == rest.mobs;
      forall i | 0 <= i < |mobs|
        ensures rest.mobs[i].hp == mobs[i].hp - HitDamage(ps, mobs, dt, i)
      {
        assert first.mobs[i].hp == mobs[i].hp - (if FirstTouch(mobs, q) == Some(i) then q.damage else 0);
      }
    }
  }

  /** With no projectile touching any mob, the mobs are untouched and the
      projectiles fly on as if there were no mobs at all: exactly those
      still over the canvas remain, in order. */
  lemma NoHitsNoDamage(ps: seq<Projectile>, mobs: seq<Mob>, dt: real)
    requires forall k, i :: 0 <= k < |ps| && 0 <= i < |mobs| ==> !Touches(Advance(ps[k], dt), mobs[i])
    ensures ProjectilePass(ps, mobs, dt).mobs == mobs
    ensures ProjectilePass(ps, mobs, dt).projectiles == Flight(ps, [], dt)
  {
    ProjectilePassExactly(ps, mobs, dt);
    NoHitsZero(ps, mobs, dt);
    var out := ProjectilePass(ps, mobs, dt).mobs;
    forall i | 0 <= i < |mobs| ensures out[i] == mobs[i] {
      assert out[i] == mobs[i].(hp := out[i].hp);
    }
  }

  lemma {:induction false} NoHitsZero(ps: seq<Projectile>, mobs: seq<Mob>, dt: real)
    requires forall k, i :: 0 <= k < |ps| && 0 <= i < |mobs| ==> !Touches(Advance(ps[k], dt), mobs[i])
    ensures forall i :: HitDamage(ps, mobs, dt, i) == 0
    ensures Flight(ps, mobs, dt) == Flight(ps, [], dt)
    decreases |ps|
  {
    if |ps| > 0 {
      assert FirstTouch(mobs, Advance(ps[0], dt)).None?;
      assert FirstTouch([], Advance(ps[0], dt)).None?;
      NoHitsZero(ps[1..], mobs, dt);
    }
  }

  /** A kept projectile is one of the inputs after a frame of flight, so
      it keeps its damage and radius. */
  lemma {:induction false} FlightKeepsStats(ps: seq<Projectile>, mobs: seq<Mob>, dt: real)
    ensures (forall k :: 0 <= k < |ps| ==> ps[k].damage >= 0) ==>
              forall k :: 0 <= k < |Flight(ps, mobs, dt)| ==> Flight(ps, mobs, dt)[k].damage >= 0
    ensures (forall k :: 0 <= k < |ps| ==> ps[k].radius >= 0.0) ==>
              forall k :: 0 <= k < |Flight(ps, mobs, dt)| ==> Flight(ps, mobs, dt)[k].radius >= 0.0
    decreases |ps|
  {
    if |ps| > 0 {
      var tail := ps[1..];
      assert forall k :: 0 <= k < |tail| ==> tail[k] == ps[k + 1];
      FlightKeepsStats(tail, mobs, dt);
      var q := Advance(ps[0], dt);
      assert Flight(ps, mobs, dt) ==
             (if FirstTouch(mobs, q).None? && InCanvas(q.pos) then [q] else []) + Flight(tail, mobs, dt);
    }
  }

  /** The projectile pass keeps projectile ids distinct and below the counter. */
  lemma {:induction false} ProjectilePassKeepsIdsFresh(ps: seq<Projectile>, mobs: seq<Mob>, dt: real, next: nat)
    requires ProjectileIdsFresh(ps, next)
    ensures ProjectileIdsFresh(ProjectilePass(ps, mobs, dt).projectiles, next)
    decreases |ps|
  {
    if |ps| > 0 {
      var first := ResolveProjectile(ps[0], mobs, dt);
      var rest := ProjectilePass(ps[1..], first.mobs, dt);
      ProjectilePassKeepsIdsFresh(ps[1..], first.mobs, dt, next);
      var out := ProjectilePass(ps, mobs, dt).projectiles;
      forall k | 0 <= k < |rest.projectiles|
        ensures rest.projectiles[k].id != ps[0].id
      {
        var j :| 0 <= j < |ps[1..]| && ProjectileIds(ps[1..])[j] == rest.projectiles[k].id;
        assert ps[j + 1].id == rest.projectiles[k].id;
      }
    }
  }

  /** Surviving projectiles keep the damage and radius they were fired
      with, so non-negative values stay non-negative. */
  lemma ProjectilePassKeepsDamage(ps: seq<Projectile>, mobs: seq<Mob>, dt: real)
    requires forall k :: 0 <= k < |ps| ==> ps[k].damage >= 0
    ensures var out := ProjectilePass(ps, mobs, dt).projectiles;
            forall k :: 0 <= k < |out| ==> out[k].damage >= 0
    ensures var out := ProjectilePass(ps, mobs, dt).projectiles;
            (forall k :: 0 <= k < |ps| ==> ps[k].radius >= 0.0) ==>
              forall k :: 0 <= k < |out| ==> out[k].radius >= 0.0
  {
    ProjectilePassExactly(ps, mobs, dt);
    FlightKeepsStats(ps, mobs, dt);
  }

  // ---------------------------------------------------------------------
  // Mob contact

  /** Distance at which a mob stops and attacks: its attack range plus the
      champion's hitbox radius. */
  function Reach(k: MobKind): real {
    TypeOf(k).attackRange + HitboxRadius
  }

  lemma ReachSquaredExceeds(k: MobKind)
    ensures Reach(k) * Reach(k) > 5000.0
  {
  }

  predicate InReach(m: Mob, player: Vec) {
    Within(player, m.pos, Reach(m.kind))
  }

  /** Strictly more than the attack cooldown has passed since the last attack. */
  predicate CooledDown(m: Mob, now: int) {
    now - m.lastAttackTime > TypeOf(m.kind).attackCooldown
  }

  datatype Engagement = Engagement(mob: Mob, attacked: bool)

  /** One mob's frame. In reach and cooled down, it attacks and stamps its
      attack time; in reach but cooling down, it is returned unchanged and
      does not move; out of reach, it advances `speed * dt` toward the
      champion, `dist` being its current distance to the champion, and ends
      `dist - speed * dt` from it. */
  function Engage(m: Mob, player: Vec, now: int, dt: real, dist: real): (r: Engagement)
    requires IsNorm(dist, Sub(player, m.pos))
    ensures r.attacked <==> InReach(m, player) && CooledDown(m, now)
    ensures r.attacked ==> r.mob == m.(lastAttackTime := now)
    ensures InReach(m, player) && !CooledDown(m, now) ==> r.mob == m
    ensures !InReach(m, player) ==> r.mob == m.(pos := r.mob.pos)
    ensures !InReach(m, player) ==>
              var step := TypeOf(m.kind).speed * dt;
              Dist2(r.mob.pos, m.pos) == step * step
    ensures !InReach(m, player) ==>
              var left := dist - TypeOf(m.kind).speed * dt;
              Dist2(r.mob.pos, player) == left * left
  {
    if InReach(m, player) then
      if CooledDown(m, now) then Engagement(m.(lastAttackTime := now), true)
      else Engagement(m, false)
    else
      ReachSquaredExceeds(m.kind);
      Movement.NormPositive(dist, Sub(player, m.pos), Reach(m.kind) * Reach(m.kind));
      Engagement(m.(pos := Movement.Approach(m.pos, player, TypeOf(m.kind).speed, dt, dist)), false)
  }

  /** Each distance is the true distance from its mob to the champion. */
  ghost predicate DistancesTo(dists: seq<real>, mobs: seq<Mob>, player: Vec) {
    |dists| == |mobs| && forall i :: 0 <= i < |mobs| ==> IsNorm(dists[i], Sub(player, mobs[i].pos))
  }

  /** Total damage of the mobs that attack this frame. */
  function AttackDamage(mobs: seq<Mob>, player: Vec, now: int): (r: int)
    ensures (forall i :: 0 <= i < |mobs| ==> mobs[i].damage >= 0) ==> r >= 0
  {
    if |mobs| == 0 then 0
    else (if InReach(mobs[0], player) && CooledDown(mobs[0], now) then mobs[0].damage else 0)
         + AttackDamage(mobs[1..], player, now)
  }

  function Max0(x: int): int {
    if x > 0 then x else 0
  }

  datatype Melee = Melee(mobs: seq<Mob>, hp: int)

  /** The mob frame over the whole list, in order. Each attacking mob lowers
      the champion's hp by its damage, floored at 0, unless the shield is up;
      the mob's attack time is stamped either way. */
  function ContactPass(mobs: seq<Mob>, player: Vec, hp: int, shield: bool, now: int, dt: real, dists: seq<real>): (r: Melee)
    requires DistancesTo(dists, mobs, player)
    ensures |r.mobs| == |mobs|
    ensures forall i :: 0 <= i < |mobs| ==> r.mobs[i] == Engage(mobs[i], player, now, dt, dists[i]).mob
    ensures hp >= 0 ==> r.hp >= 0
    ensures shield ==> r.hp == hp
    ensures !shield && hp >= 0 && (forall i :: 0 <= i < |mobs| ==> mobs[i].damage >= 0) ==>
              r.hp == Max0(hp - AttackDamage(mobs, player, now))
    decreases |mobs|
  {
    if |mobs| == 0 then Melee([], hp)
    else
      var e := Engage(mobs[0], player, now, dt, dists[0]);
      var hp1 := if e.attacked && !shield then Max0(hp - mobs[0].damage) else hp;
      var rest := ContactPass(mobs[1..], player, hp1, shield, now, dt, dists[1..]);
      assert !shield && hp >= 0 && (forall i :: 0 <= i < |mobs| ==> mobs[i].damage >= 0) ==>
               rest.hp == Max0(hp - AttackDamage(mobs, player, now)) by {
        if !shield && hp >= 0 && (forall i :: 0 <= i < |mobs| ==> mobs[i].damage >= 0) {
          assert forall i :: 0 <= i < |mobs[1..]| ==> mobs[1..][i].damage >= 0 by {
            forall i | 0 <= i < |mobs[1..]| ensures mobs[1..][i].damage >= 0 {
              assert mobs[1..][i] == mobs[i + 1];
            }
          }
          assert AttackDamage(mobs[1..], player, now) >= 0;
        }
      }
      Melee([e.mob] + rest.mobs, rest.hp)
  }

  /** The contact pass never changes which mobs there are or their stats:
      only positions and attack times move. */
  lemma ContactPassKeepsIdentity(mobs: seq<Mob>, player: Vec, hp: int, shield: bool, now: int, dt: real, dists: seq<real>)
    requires DistancesTo(dists, mobs, player)
    ensures var r := ContactPass(mobs, player, hp, shield, now, dt, dists).mobs;
            forall i :: 0 <= i < |mobs| ==>
              r[i].id == mobs[i].id && r[i].kind == mobs[i].kind && r[i].hp == mobs[i].hp
              && r[i].maxHp == mobs[i].maxHp && r[i].damage == mobs[i].damage
  {
  }

  // ---------------------------------------------------------------------
  // Death filter

  /** The mobs left standing: those with hp > 0, in their original order. */
  function Survivors(mobs: seq<Mob>): seq<Mob> {
    if |mobs| == 0 then []
    else (if mobs[0].hp > 0 then [mobs[0]] else []) + Survivors(mobs[1..])
  }

  /** The mobs removed: those with hp <= 0, in their original order. */
  function Fallen(mobs: seq<Mob>): seq<Mob> {
    if |mobs| == 0 then []
    else (if mobs[0].hp <= 0 then [mobs[0]] else []) + Fallen(mobs[1..])
  }

  /** What killing some mobs is worth. */
  datatype Bounty = Bounty(xp: int, gold: int, kills: nat)

  /** The rewards for a list of killed mobs: their archetypes' xp and gold,
      one kill each. */
  function Tally(dead: seq<Mob>): Bounty {
    if |dead| == 0 then Bounty(0, 0, 0)
    else
      var b := Tally(dead[1..]);
      Bounty(b.xp + TypeOf(dead[0].kind).xp, b.gold + TypeOf(dead[0].kind).gold, b.kills + 1)
  }

  /** The filter splits the list: every mob is kept or removed, never both,
      so none is credited twice and none is lost. */
  lemma {:induction false} DeathFilterPartitions(mobs: seq<Mob>)
    ensures multiset(Survivors(mobs)) + multiset(Fallen(mobs)) == multiset(mobs)
    ensures |Survivors(mobs)| + Tally(Fallen(mobs)).kills == |mobs|
  {
    if |mobs| > 0 {
      var m, tail := mobs[0], mobs[1..];
      DeathFilterPartitions(tail);
      assert mobs == [m] + tail;
      var keep := if m.hp > 0 then [m] else [];
      var drop := if m.hp <= 0 then [m] else [];
      assert Survivors(mobs) == keep + Survivors(tail);
      assert Fallen(mobs) == drop + Fallen(tail);
      assert multiset(keep) + multiset(drop) == multiset([m]);
      assert |keep| + |drop| == 1;
    }
    TallyCountsKills(Fallen(mobs));
  }

  /** A mob survives exactly when it is in the list with hp > 0. */
  lemma {:induction false} SurvivorsExactly(mobs: seq<Mob>)
    ensures forall m :: m in Survivors(mobs) <==> m in mobs && m.hp > 0
  {
    if |mobs| > 0 {
      SurvivorsExactly(mobs[1..]);
      assert mobs == [mobs[0]] + mobs[1..];
    }
  }

  /** A mob is removed exactly when it is in the list with hp <= 0. */
  lemma {:induction false} FallenExactly(mobs: seq<Mob>)
    ensures forall m :: m in Fallen(mobs) <==> m in mobs && m.hp <= 0
  {
    if |mobs| > 0 {
      FallenExactly(mobs[1..]);
      assert mobs == [mobs[0]] + mobs[1..];
    }
  }

  lemma {:induction false} TallyCountsKills(dead: seq<Mob>)
    ensures Tally(dead).kills == |dead|
  {
    if |dead| > 0 {
      TallyCountsKills(dead[1..]);
    }
  }

  /** When every mob is dead, none survives. */
  lemma {:induction false} NoSurvivors(mobs: seq<Mob>)
    requires forall i :: 0 <= i < |mobs| ==> mobs[i].hp <= 0
    ensures Survivors(mobs) == []
  {
    if |mobs| > 0 {
      assert forall i :: 0 <= i < |mobs[1..]| ==> mobs[1..][i] == mobs[i + 1];
      NoSurvivors(mobs[1..]);
    }
  }

  /** Every kill pays at least a slime's bounty: 10 xp and 5 gold. */
  lemma {:induction false} TallyAtLeast(dead: seq<Mob>)
    ensures Tally(dead).xp >= 10 * |dead| && Tally(dead).gold >= 5 * |dead|
  {
    if |dead| > 0 {
      TallyAtLeast(dead[1..]);
      assert TypeOf(dead[0].kind).xp >= 10 && TypeOf(dead[0].kind).gold >= 5;
    }
  }

  /** Filtering a concatenation filters each part: survivors keep their order. */
  lemma {:induction false} SurvivorsAppend(a: seq<Mob>, b: seq<Mob>)
    ensures Survivors(a + b) == Survivors(a) + Survivors(b)
    ensures Fallen(a + b) == Fallen(a) + Fallen(b)
  {
    if |a| > 0 {
      assert (a + b)[1..] == a[1..] + b;
      SurvivorsAppend(a[1..], b);
    } else {
      assert a + b == b;
    }
  }

  /** Filtering keeps mob ids distinct and below the counter. */
  lemma {:induction false} SurvivorsKeepIdsFresh(mobs: seq<Mob>, next: nat)
    requires MobIdsFresh(mobs, next)
    ensures MobIdsFresh(Survivors(mobs), next)
  {
    if |mobs| > 0 {
      SurvivorsKeepIdsFresh(mobs[1..], next);
      SurvivorsExactly(mobs[1..]);
      var rest := Survivors(mobs[1..]);
      forall k | 0 <= k < |rest|
        ensures rest[k].id != mobs[0].id
      {
        assert rest[k] in mobs[1..];
      }
    }
  }

  function MobIds(mobs: seq<Mob>): seq<nat> {
    seq(|mobs|, i requires 0 <= i < |mobs| => mobs[i].id)
  }

  /** Two lists of the same mobs, position for position: same id, kind and
      hp, whatever else (position, attack time) differs. */
  ghost predicate SameRoster(a: seq<Mob>, b: seq<Mob>) {
    && |a| == |b|
    && forall i :: 0 <= i < |a| ==> a[i].id == b[i].id && a[i].kind == b[i].kind && a[i].hp == b[i].hp
  }

  /** The death filter decides on hp alone: the same roster keeps the same
      mobs, in order. */
  lemma {:induction false} SameRosterSameSurvivors(a: seq<Mob>, b: seq<Mob>)
    requires SameRoster(a, b)
    ensures MobIds(Survivors(a)) == MobIds(Survivors(b))
  {
    if |a| > 0 {
      assert SameRoster(a[1..], b[1..]) by {
        assert forall i :: 0 <= i < |a| - 1 ==> a[1..][i] == a[i + 1] && b[1..][i] == b[i + 1];
      }
      SameRosterSameSurvivors(a[1..], b[1..]);
      var ra, rb := Survivors(a[1..]), Survivors(b[1..]);
      if a[0].hp > 0 {
        assert Survivors(a) == [a[0]] + ra && Survivors(b) == [b[0]] + rb;
        assert MobIds([a[0]] + ra) == [a[0].id] + MobIds(ra);
        assert MobIds([b[0]] + rb) == [b[0].id] + MobIds(rb);
      } else {
        assert Survivors(a) == ra && Survivors(b) == rb;
      }
    }
  }

  /** The bounty is credited by kind alone: the same roster earns the same
      bounty. */
  lemma {:induction false} SameRosterSameBounty(a: seq<Mob>, b: seq<Mob>)
    requires SameRoster(a, b)
    ensures Tally(Fallen(a)) == Tally(Fallen(b))
  {
    if |a| > 0 {
      assert SameRoster(a[1..], b[1..]) by {
        assert forall i :: 0 <= i < |a| - 1 ==> a[1..][i] == a[i + 1] && b[1..][i] == b[i + 1];
      }
      SameRosterSameBounty(a[1..], b[1..]);
      var fa, fb := Fallen(a[1..]), Fallen(b[1..]);
      if a[0].hp <= 0 {
        assert Fallen(a) == [a[0]] + fa && Fallen(b) == [b[0]] + fb;
        assert ([a[0]] + fa)[1..] == fa && ([b[0]] + fb)[1..] == fb;
      } else {
        assert Fallen(a) == fa && Fallen(b) == fb;
      }
    }
  }

  /** The death filter as a single pass: removals and their rewards are
      collected together, then applied. */
  method Reap(mobs: seq<Mob>) returns (alive: seq<Mob>, bounty: Bounty)
    ensures alive == Survivors(mobs)
    ensures bounty == Tally(Fallen(mobs))
  {
    alive := [];
    var dead: seq<Mob> := [];
    var xp, gold, kills := 0, 0, 0;
    var i := 0;
    while i < |mobs|
      invariant 0 <= i <= |mobs|
      invariant alive == Survivors(mobs[..i])
      invariant dead == Fallen(mobs[..i])
      invariant Bounty(xp, gold, kills) == Tally(dead)
    {
      var m := mobs[i];
      SurvivorsAppend(mobs[..i], [m]);
      FilterSingleton(m);
      assert mobs[..i + 1] == mobs[..i] + [m];
      if m.hp <= 0 {
        TallyAppend(dead, m);
        dead := dead + [m];
        xp := xp + TypeOf(m.kind).xp;
        gold := gold + TypeOf(m.kind).gold;
        kills := kills + 1;
      } else {
        alive := alive + [m];
      }
      i := i + 1;
    }
    assert mobs[..i] == mobs;
    bounty := Bounty(xp, gold, kills);
  }

  /** The filter on a single mob. */
  lemma FilterSingleton(m: Mob)
    ensures Survivors([m]) == if m.hp > 0 then [m] else []
    ensures Fallen([m]) == if m.hp <= 0 then [m] else []
  {
    assert [m][1..] == [];
  }

  /** Crediting one more kill adds that archetype's xp and gold. */
  lemma {:induction false} TallyAppend(dead: seq<Mob>, m: Mob)
    ensures Tally(dead + [m]) ==
              Bounty(Tally(dead).xp + TypeOf(m.kind).xp, Tally(dead).gold + TypeOf(m.kind).gold, Tally(dead).kills + 1)
  {
    if |dead| > 0 {
      assert (dead + [m])[1..] == dead[1..] + [m];
      TallyAppend(dead[1..], m);
    } else {
      assert (dead + [m])[1..] == [];
    }
  }
}

=== FILE: entities.dfy ===
/** The live entities of a session: mobs and projectiles, each carrying a
    unique identifier drawn from a monotonic counter. */
module Entities {

  import opened Geometry
  import opened MobTypes

  /** A spawned mob. `hp` may go negative: damage is subtracted without a
      floor and only the death filter removes the mob. */
  datatype Mob = Mob(
    id: nat,
    pos: Vec,
    kind: MobKind,
    hp: int,
    maxHp: int,
    damage: int,
    lastAttackTime: int)

  datatype ProjectileKind = BasicShot | FireballShot

  /** A projectile in flight; `vel` is in canvas units per second. */
  datatype Projectile = Projectile(
    id: nat,
    pos: Vec,
    vel: Vec,
    damage: int,
    radius: real,
    kind: ProjectileKind)

  /** Every mob id is below the counter and no two mobs share an id. */
  ghost predicate MobIdsFresh(mobs: seq<Mob>, next: nat) {
    && (forall i :: 0 <= i < |mobs| ==> mobs[i].id < next)
    && (forall i, j :: 0 <= i < j < |mobs| ==> mobs[i].id != mobs[j].id)
  }

  /** Every projectile id is below the counter and no two projectiles share an id. */
  ghost predicate ProjectileIdsFresh(ps: seq<Projectile>, next: nat) {
    && (forall i :: 0 <= i < |ps| ==> ps[i].id < next)
    && (forall i, j :: 0 <= i < j < |ps| ==> ps[i].id != ps[j].id)
  }

  /** `after` is `before` with each mob's hp possibly changed and nothing else. */
  ghost predicate SameButHp(before: seq<Mob>, after: seq<Mob>) {
    && |after| == |before|
    && forall i :: 0 <= i < |before| ==> after[i] == before[i].(hp := after[i].hp)
  }

  /** No mob's hp went up. */
  ghost predicate HpNotRaised(before: seq<Mob>, after: seq<Mob>)
    requires |after| == |before|
  {
    forall i :: 0 <= i < |before| ==> after[i].hp <= before[i].hp
  }

  lemma SameButHpTransitive(a: seq<Mob>, b: seq<Mob>, c: seq<Mob>)
    requires SameButHp(a, b) && SameButHp(b, c)
    ensures SameButHp(a, c)
  {
    forall i | 0 <= i < |a| ensures c[i] == a[i].(hp := c[i].hp) {
      assert b[i] == a[i].(hp := b[i].hp);
      assert c[i] == b[i].(hp := c[i].hp);
    }
  }

  lemma HpNotRaisedTransitive(a: seq<Mob>, b: seq<Mob>, c: seq<Mob>)
    requires |a| == |b| == |c|
    requires HpNotRaised(a, b) && HpNotRaised(b, c)
    ensures HpNotRaised(a, c)
  {
  }
}

=== FILE: game.dfy ===
/** The game session: one explicit record holding everything the component
    keeps in state, and one pure step function per thing that can happen to
    it — an ability key, a frame of each animation loop, an effect firing,
    a wave starting, a mob spawning, the shield timer running out, an unlock
    button being pressed. Time, random draws and square roots are passed in. */
module Game {

  import opened Options
  import opened Geometry
  import opened MobTypes
  import opened Entities
  import opened Abilities
  import opened Targeting
  import opened Movement
  import opened Combat
  import opened Waves

  datatype Session = Session(
    pos: Vec,
    target: Option<Vec>,
    hp: int,
    maxHp: int,
    level: int,
    xp: int,
    xpToNextLevel: int,
    mobs: seq<Mob>,
    wave: int,
    waveActive: bool,
    mobsInWave: int,
    mobsKilled: int,
    gold: int,
    totalKills: int,
    abilities: AbilitySet,
    shieldActive: bool,
    projectiles: seq<Projectile>,
    nextMobId: nat,
    nextProjectileId: nat)

  /** The state at session start. */
  function Initial(): Session {
    Session(Vec(600.0, 400.0), None, 100, 100, 1, 0, 100, [], 1, false, 0, 0, 0, 0,
            InitialAbilities(), false, [], 0, 0)
  }

  /** What every reachable session satisfies. */
  ghost predicate Valid(s: Session) {
    && InArena(s.pos)
    && 0 <= s.hp <= s.maxHp
    && s.level >= 1
    && s.xp >= 0
    && s.xpToNextLevel >= 1
    && s.wave >= 1
    && s.gold >= 0 && s.totalKills >= 0 && s.mobsKilled >= 0
    && (forall i :: 0 <= i < |s.mobs| ==> s.mobs[i].damage >= 0)
    && (forall i :: 0 <= i < |s.projectiles| ==> s.projectiles[i].damage >= 0)
    && (forall i :: 0 <= i < |s.projectiles| ==> s.projectiles[i].radius >= 0.0)
    && MobIdsFresh(s.mobs, s.nextMobId)
    && ProjectileIdsFresh(s.projectiles, s.nextProjectileId)
  }

  lemma InitialValid()
    ensures Valid(Initial())
  {
  }

  // ---------------------------------------------------------------------
  // Abilities

  const BasicSpeed: real := 500.0
  const BasicRadius: real := 8.0
  const FireballSpeed: real := 400.0
  const FireballRadius: real := 15.0

  /** Damage of a basic shot at a level. */
  function BasicDamage(level: int): int {
    10 + level * 2
  }

  /** A velocity of the given speed along `d`, whose length is `dist`. */
  function Heading(d: Vec, dist: real, speed: real): (v: Vec)
    requires IsNorm(dist, d)
    ensures dist > 0.0 ==> v == Scale(d, speed / dist) && Norm2(v) == speed * speed
  {
    if dist == 0.0 then Vec(0.0, 0.0)
    else
      var k := speed / dist;
      var v := Scale(d, k);
      assert k * dist == speed;
      assert Norm2(v) == k * k * Norm2(d);
      assert k * k * (dist * dist) == (k * dist) * (k * dist);
      v
  }

  /** `dist` is the distance from the champion to the mob auto-aim picks. */
  ghost predicate AimDistance(s: Session, dist: real) {
    match Nearest(s.mobs, s.pos)
    case None => true
    case Some(i) => IsNorm(dist, Sub(s.mobs[i].pos, s.pos))
  }

  /** `dist` is the distance from the champion to its move target. */
  ghost predicate TargetDistance(s: Session, dist: real) {
    match s.target
    case None => true
    case Some(t) => IsNorm(dist, Sub(t, s.pos))
  }

  /** The projectile a shot at mob `i` starts as. */
  function Shot(s: Session, i: nat, speed: real, damage: int, radius: real, kind: ProjectileKind,
                dist: real): (p: Projectile)
    requires i < |s.mobs| && IsNorm(dist, Sub(s.mobs[i].pos, s.pos))
    ensures p.id == s.nextProjectileId && p.pos == s.pos
    ensures p.damage == damage && p.radius == radius && p.kind == kind
    ensures dist > 0.0 ==> p.vel == Scale(Sub(s.mobs[i].pos, s.pos), speed / dist)
                           && Norm2(p.vel) == speed * speed
  {
    Projectile(s.nextProjectileId, s.pos, Heading(Sub(s.mobs[i].pos, s.pos), dist, speed),
               damage, radius, kind)
  }

  /** Fires a projectile from the champion at the first nearest mob and
      stamps ability `n`; with no mob to aim at, nothing happens. */
  function Launch(s: Session, now: int, n: AbilityName, speed: real, damage: int, radius: real,
                  kind: ProjectileKind, dist: real): (r: Session)
    requires AimDistance(s, dist)
    ensures |s.mobs| == 0 ==> r == s
    ensures |s.mobs| > 0 ==>
              r == s.(projectiles := r.projectiles, nextProjectileId := s.nextProjectileId + 1,
                      abilities := Stamp(s.abilities, n, now))
    ensures |s.mobs| > 0 ==>
              exists i :: FirstNearest(s.mobs, s.pos, i) &&
                r.projectiles == s.projectiles + [Shot(s, i, speed, damage, radius, kind, dist)]
  {
    match Nearest(s.mobs, s.pos)
    case None => s
    case Some(i) =>
      s.(projectiles := s.projectiles + [Shot(s, i, speed, damage, radius, kind, dist)],
         nextProjectileId := s.nextProjectileId + 1,
         abilities := Stamp(s.abilities, n, now))
  }

  /** The basic attack (space): gated by cooldown only. When ready and some
      mob is on the field, one shot of speed `BasicSpeed`, radius
      `BasicRadius` and damage `10 + 2 * level` is appended, aimed at the
      first nearest mob and numbered by the counter, and the basic attack's
      `lastUsed` becomes `now`; nothing else changes. */
  function ShootProjectile(s: Session, now: int, dist: real): (r: Session)
    requires AimDistance(s, dist)
    ensures !Ready(s.abilities, BasicAttack, now) || |s.mobs| == 0 ==> r == s
    ensures Ready(s.abilities, BasicAttack, now) && |s.mobs| > 0 ==>
              && r == s.(projectiles := r.projectiles, nextProjectileId := s.nextProjectileId + 1,
                         abilities := Stamp(s.abilities, BasicAttack, now))
              && (exists i :: FirstNearest(s.mobs, s.pos, i) &&
                    r.projectiles == s.projectiles + [Shot(s, i, BasicSpeed, BasicDamage(s.level), BasicRadius, BasicShot, dist)])
    ensures Ready(s.abilities, BasicAttack, now) && |s.mobs| > 0 ==>
              && |r.projectiles| == |s.projectiles| + 1
              && r.projectiles[..|s.projectiles|] == s.projectiles
              && r.projectiles[|s.projectiles|].id == s.nextProjectileId
              && r.projectiles[|s.projectiles|].pos == s.pos
              && r.projectiles[|s.projectiles|].damage == 10 + 2 * s.level
              && r.projectiles[|s.projectiles|].radius == 8.0
  {
    if !Ready(s.abilities, BasicAttack, now) then s
    else
      var r := Launch(s, now, BasicAttack, BasicSpeed, BasicDamage(s.level), BasicRadius, BasicShot, dist);
      assert |s.mobs| > 0 ==> r.projectiles[..|s.projectiles|] == s.projectiles;
      r
  }

  /** Fireball (W): gated by lock and cooldown. When ready and some mob is
      on the field, one fireball of speed `FireballSpeed`, radius
      `FireballRadius` and damage `FireballDamage` is appended, aimed at the
      first nearest mob, and the fireball's `lastUsed` becomes `now`;
      nothing else changes. */
  function UseFireball(s: Session, now: int, dist: real): (r: Session)
    requires AimDistance(s, dist)
    ensures !Ready(s.abilities, Fireball, now) || |s.mobs| == 0 ==> r == s
    ensures Ready(s.abilities, Fireball, now) && |s.mobs| > 0 ==>
              && r == s.(projectiles := r.projectiles, nextProjectileId := s.nextProjectileId + 1,
                         abilities := Stamp(s.abilities, Fireball, now))
              && (exists i :: FirstNearest(s.mobs, s.pos, i) &&
                    r.projectiles == s.projectiles + [Shot(s, i, FireballSpeed, FireballDamage, FireballRadius, FireballShot, dist)])
    ensures Ready(s.abilities, Fireball, now) && |s.mobs| > 0 ==>
              && |r.projectiles| == |s.projectiles| + 1
              && r.projectiles[..|s.projectiles|] == s.projectiles
              && r.projectiles[|s.projectiles|].id == s.nextProjectileId
              && r.projectiles[|s.projectiles|].pos == s.pos
              && r.projectiles[|s.projectiles|].damage == 30
              && r.projectiles[|s.projectiles|].radius == 15.0
  {
    if !Ready(s.abilities, Fireball, now) then s
    else
      var r := Launch(s, now, Fireball, FireballSpeed, FireballDamage, FireballRadius, FireballShot, dist);
      assert |s.mobs| > 0 ==> r.projectiles[..|s.projectiles|] == s.projectiles;
      r
  }

  /** Lightning (E): when ready, every mob strictly within `LightningRadius`
      of the champion loses `LightningDamage` hp, the others are untouched,
      and the lightning's `lastUsed` becomes `now`; nothing else changes. */
  function UseLightning(s: Session, now: int): (r: Session)
    ensures !Ready(s.abilities, Lightning, now) ==> r == s
    ensures Ready(s.abilities, Lightning, now) ==>
              && r == s.(mobs := r.mobs, abilities := Stamp(s.abilities, Lightning, now))
              && SameButHp(s.mobs, r.mobs)
              && forall i :: 0 <= i < |s.mobs| ==>
                   r.mobs[i].hp == s.mobs[i].hp - (if Within(s.mobs[i].pos, s.pos, LightningRadius) then 50 else 0)
  {
    if !Ready(s.abilities, Lightning, now) then s
    else s.(mobs := Combat.Lightning(s.mobs, s.pos), abilities := Stamp(s.abilities, Lightning, now))
  }

  /** Shield (R): when ready, raises the shield and stamps it, changing
      nothing else; with a positive cooldown it cannot be raised again at the
      same instant. `ExpireShield` lowers it. */
  function UseShield(s: Session, now: int): (r: Session)
    ensures !Ready(s.abilities, Shield, now) ==> r == s
    ensures Ready(s.abilities, Shield, now) ==>
              r == s.(shieldActive := true, abilities := Stamp(s.abilities, Shield, now))
    ensures Ready(s.abilities, Shield, now) && s.abilities.Get(Shield).cooldown > 0 ==>
              r.shieldActive && !Ready(r.abilities, Shield, now)
  {
    if !Ready(s.abilities, Shield, now) then s
    else s.(shieldActive := true, abilities := Stamp(s.abilities, Shield, now))
  }

  /** Dash (Q): jumps up to `DashDistance` toward the move target, clamped to
      the arena; without a target nothing happens. */
  function UseDash(s: Session, now: int, dist: real): (r: Session)
    requires TargetDistance(s, dist)
    ensures InArena(s.pos) ==> InArena(r.pos)
    ensures r == s.(pos := r.pos, abilities := r.abilities)
    ensures !Ready(s.abilities, Dash, now) || s.target.None? ==> r == s
    ensures Ready(s.abilities, Dash, now) && s.target.Some? ==>
              && r.pos == ClampToArena(DashLanding(s.pos, s.target.value, dist))
              && r.abilities == Stamp(s.abilities, Dash, now)
    ensures && Ready(s.abilities, Dash, now) && s.target.Some? && InArena(s.target.value)
            && dist <= Abilities.DashDistance
            ==> r.pos == s.target.value
  {
    if !Ready(s.abilities, Dash, now) then s
    else
      match s.target
      case None => s
      case Some(t) =>
        s.(pos := ClampToArena(DashLanding(s.pos, t, dist)), abilities := Stamp(s.abilities, Dash, now))
  }

  /** What `dist` must be for ability `n`. */
  ghost predicate ActivationDistance(s: Session, n: AbilityName, dist: real) {
    && (n == BasicAttack || n == Fireball ==> AimDistance(s, dist))
    && (n == Dash ==> TargetDistance(s, dist))
  }

  /** Whether ability `n` has something to act on: a mob to aim at for the
      two projectiles, a move target for the dash. */
  predicate HasWork(s: Session, n: AbilityName) {
    match n
    case BasicAttack => |s.mobs| > 0
    case Fireball => |s.mobs| > 0
    case Dash => s.target.Some?
    case _ => true
  }

  /** A key press for ability `n`, behind the gate all five abilities share.
      A locked or cooling-down ability changes nothing; so does a ready one
      with nothing to act on. A ready one with something to act on fires:
      its own `lastUsed` becomes `now` and the other abilities are
      untouched. */
  function Activate(s: Session, n: AbilityName, now: int, dist: real): (r: Session)
    requires ActivationDistance(s, n, dist)
    ensures !Ready(s.abilities, n, now) ==> r == s
    ensures Ready(s.abilities, n, now) && !HasWork(s, n) ==> r == s
    ensures Ready(s.abilities, n, now) && HasWork(s, n) ==>
              && r.abilities == Stamp(s.abilities, n, now)
              && r.abilities.Get(n).lastUsed == now
              && forall m :: m != n ==> r.abilities.Get(m) == s.abilities.Get(m)
    ensures r == s.(abilities := r.abilities, projectiles := r.projectiles, nextProjectileId := r.nextProjectileId,
                    mobs := r.mobs, shieldActive := r.shieldActive, pos := r.pos)
    ensures n != Lightning ==> r.mobs == s.mobs
    ensures n != Shield ==> r.shieldActive == s.shieldActive
    ensures n != Dash ==> r.pos == s.pos
    ensures n != BasicAttack && n != Fireball ==>
              r.projectiles == s.projectiles && r.nextProjectileId == s.nextProjectileId
  {
    match n
    case BasicAttack => ShootProjectile(s, now, dist)
    case Fireball => UseFireball(s, now, dist)
    case Lightning => UseLightning(s, now)
    case Shield => UseShield(s, now)
    case Dash => UseDash(s, now, dist)
  }

  /** A cooldown of 3000 ms stamped at t = 0 blocks the ability at
      t = 2000 and lets it through at t = 3001. */
  lemma CooldownScenario(s: Session, n: AbilityName, dist: real)
    requires ActivationDistance(s, n, dist)
    requires !Locked(s.abilities, n)
    requires s.abilities.Get(n).cooldown == 3000 && s.abilities.Get(n).lastUsed == 0
    ensures Activate(s, n, 2000, dist) == s
    ensures Ready(s.abilities, n, 3001)
  {
  }

  // ---------------------------------------------------------------------
  // Frames

  /** A frame of the champion's movement toward the move target; from
      inside the arena it never ends farther from the target. */
  function MoveTick(s: Session, dt: real, dist: real): (r: Session)
    requires TargetDistance(s, dist)
    ensures s.target.None? ==> r == s
    ensures r == s.(pos := r.pos, target := r.target)
    ensures InArena(s.pos) ==> InArena(r.pos)
    ensures r.target.None? ==> r.pos == s.pos
    ensures s.target.Some? && Within(s.target.value, s.pos, ArrivalRadius) ==> r == s.(target := None)
    ensures s.target.Some? && !Within(s.target.value, s.pos, ArrivalRadius) ==> r.target == s.target
    ensures s.target.Some? && InArena(s.pos) && dt >= 0.0 ==>
              Dist2(r.pos, s.target.value) <= Dist2(s.pos, s.target.value)
  {
    match s.target
    case None => s
    case Some(t) =>
      var m := MoveStep(s.pos, t, dt, dist);
      MoveStepNeverOvershoots(s.pos, t, dt, dist);
      s.(pos := m.pos, target := m.target)
  }

  /** Between arena points, a movement frame that does not arrive keeps the
      target and advances the champion exactly `MoveSpeed * dt` toward it,
      unclamped. From inside the arena, toward any target, even one in the
      margin outside it, the frame moves at most `MoveSpeed * dt`, and exactly
      that while the unclamped point stays inside the arena. */
  lemma MoveTickAdvances(s: Session, dt: real, dist: real)
    requires TargetDistance(s, dist)
    ensures && s.target.Some? && InArena(s.pos) && InArena(s.target.value)
            && !Within(s.target.value, s.pos, ArrivalRadius) && dt >= 0.0 && MoveSpeed * dt < dist
            ==> && MoveTick(s, dt, dist).target == s.target
                && Dist2(MoveTick(s, dt, dist).pos, s.pos) == (MoveSpeed * dt) * (MoveSpeed * dt)
                && Dist2(MoveTick(s, dt, dist).pos, s.target.value) == (dist - MoveSpeed * dt) * (dist - MoveSpeed * dt)
    ensures s.target.Some? && InArena(s.pos) && dt >= 0.0 ==>
              Dist2(MoveTick(s, dt, dist).pos, s.pos) <= (MoveSpeed * dt) * (MoveSpeed * dt)
    ensures && s.target.Some? && InArena(s.pos) && !Within(s.target.value, s.pos, ArrivalRadius)
            && dt >= 0.0 && dist > 0.0 && MoveSpeed * dt < dist
            && InArena(Lerp(s.pos, s.target.value, StepRatio(dt, dist)))
            ==> Dist2(MoveTick(s, dt, dist).pos, s.pos) == (MoveSpeed * dt) * (MoveSpeed * dt)
  {
    if s.target.Some? {
      MoveStepTravel(s.pos, s.target.value, dt, dist);
    }
  }

  /** A frame of the mob loop: every mob engages or advances, then the dead
      are removed and credited as xp, gold, kills and wave kills. */
  function MobTick(s: Session, now: int, dt: real, dists: seq<real>): (r: Session)
    requires DistancesTo(dists, s.mobs, s.pos)
    ensures r == s.(mobs := r.mobs, hp := r.hp, xp := r.xp, gold := r.gold,
                    totalKills := r.totalKills, mobsKilled := r.mobsKilled)
    ensures forall m :: m in r.mobs ==> m.hp > 0
    ensures r.totalKills - s.totalKills == r.mobsKilled - s.mobsKilled == |s.mobs| - |r.mobs|
    ensures r.xp - s.xp >= 10 * (|s.mobs| - |r.mobs|) && r.gold - s.gold >= 5 * (|s.mobs| - |r.mobs|)
    ensures s.shieldActive ==> r.hp == s.hp
    ensures s.hp >= 0 ==> r.hp >= 0
  {
    var c := ContactPass(s.mobs, s.pos, s.hp, s.shieldActive, now, dt, dists);
    var b := Tally(Fallen(c.mobs));
    SurvivorsExactly(c.mobs);
    DeathFilterPartitions(c.mobs);
    TallyCountsKills(Fallen(c.mobs));
    TallyAtLeast(Fallen(c.mobs));
    s.(mobs := Survivors(c.mobs), hp := c.hp, xp := s.xp + b.xp, gold := s.gold + b.gold,
       totalKills := s.totalKills + b.kills, mobsKilled := s.mobsKilled + b.kills)
  }

  /** The mob frame keeps each mob that entered it alive, in order, as that
      mob's engagement left it (moved, or with its attack stamped), removes
      exactly the mobs that entered it dead, and credits exactly their archetypes' xp and
      gold and one kill each: moving and attacking never changes a mob's hp.
      Without the shield, the champion loses the attackers' damage, floored
      at 0. */
  lemma MobTickSettles(s: Session, now: int, dt: real, dists: seq<real>)
    requires DistancesTo(dists, s.mobs, s.pos)
    ensures var r := MobTick(s, now, dt, dists);
            && MobIds(r.mobs) == MobIds(Survivors(s.mobs))
            && r.xp == s.xp + Tally(Fallen(s.mobs)).xp
            && r.gold == s.gold + Tally(Fallen(s.mobs)).gold
            && r.totalKills - s.totalKills == r.mobsKilled - s.mobsKilled == |Fallen(s.mobs)|
    ensures MobTick(s, now, dt, dists).mobs ==
              Survivors(seq(|s.mobs|, i requires 0 <= i < |s.mobs| => Engage(s.mobs[i], s.pos, now, dt, dists[i]).mob))
    ensures !s.shieldActive && s.hp >= 0 && (forall i :: 0 <= i < |s.mobs| ==> s.mobs[i].damage >= 0) ==>
              MobTick(s, now, dt, dists).hp == Max0(s.hp - AttackDamage(s.mobs, s.pos, now))
  {
    var c := ContactPass(s.mobs, s.pos, s.hp, s.shieldActive, now, dt, dists);
    ContactPassKeepsIdentity(s.mobs, s.pos, s.hp, s.shieldActive, now, dt, dists);
    assert c.mobs == seq(|s.mobs|, i requires 0 <= i < |s.mobs| => Engage(s.mobs[i], s.pos, now, dt, dists[i]).mob);
    assert SameRoster(c.mobs, s.mobs);
    SameRosterSameSurvivors(c.mobs, s.mobs);
    SameRosterSameBounty(c.mobs, s.mobs);
    TallyCountsKills(Fallen(s.mobs));
    TallyCountsKills(Fallen(c.mobs));
  }

  /** A frame of the projectile loop: the projectiles kept are exactly those
      that, after a frame of flight, touch no mob and are over the canvas;
      each mob loses the damage of the projectiles that struck it first. */
  function ProjectileTick(s: Session, dt: real): (r: Session)
    ensures r == s.(projectiles := r.projectiles, mobs := r.mobs)
    ensures SameButHp(s.mobs, r.mobs)
    ensures forall k :: 0 <= k < |r.projectiles| ==> InCanvas(r.projectiles[k].pos)
    ensures |r.projectiles| <= |s.projectiles|
    ensures (forall k :: 0 <= k < |s.projectiles| ==> s.projectiles[k].damage >= 0) ==>
              HpNotRaised(s.mobs, r.mobs)
    ensures r.projectiles == Flight(s.projectiles, s.mobs, dt)
    ensures forall i :: 0 <= i < |s.mobs| ==> r.mobs[i].hp == s.mobs[i].hp - HitDamage(s.projectiles, s.mobs, dt, i)
  {
    var v := ProjectilePass(s.projectiles, s.mobs, dt);
    ProjectilePassExactly(s.projectiles, s.mobs, dt);
    s.(projectiles := v.projectiles, mobs := v.mobs)
  }

  // ---------------------------------------------------------------------
  // Progression and waves

  /** The next level's threshold: the current one times 1.5, rounded. */
  function NextThreshold(t: int): (r: int)
    ensures t >= 1 ==> r > t
    ensures r == (3 * t + 1) / 2
  {
    Round(t as real * 1.5)
  }

  /** The level-up effect firing once. */
  function LevelUp(s: Session): (r: Session)
    ensures s.xp < s.xpToNextLevel ==> r == s
    ensures s.xp >= s.xpToNextLevel ==>
              && r == s.(level := s.level + 1, xp := s.xp - s.xpToNextLevel,
                         xpToNextLevel := (3 * s.xpToNextLevel + 1) / 2,
                         maxHp := s.maxHp + 20, hp := s.hp + 20)
              && r.xp >= 0
              && (s.xpToNextLevel >= 1 ==> r.xpToNextLevel > s.xpToNextLevel)
              && (s.hp <= s.maxHp ==> r.hp <= r.maxHp)
  {
    if s.xp >= s.xpToNextLevel then
      s.(level := s.level + 1, xp := s.xp - s.xpToNextLevel,
         xpToNextLevel := NextThreshold(s.xpToNextLevel),
         maxHp := s.maxHp + 20, hp := s.hp + 20)
    else s
  }

  /** The threshold after `k` level-ups starting from threshold `t`. */
  function ThresholdAfter(t: int, k: nat): int
    decreases k
  {
    if k == 0 then t else ThresholdAfter(NextThreshold(t), k - 1)
  }

  /** The xp that `k` level-ups starting from threshold `t` consume: the sum
      of the `k` successive thresholds. */
  function Spent(t: int, k: nat): int
    decreases k
  {
    if k == 0 then 0 else t + Spent(NextThreshold(t), k - 1)
  }

  /** The level-up effect re-runs after each change it makes until xp is
      below the threshold. With `k` levels gained, xp pays the `k` successive
      thresholds, the threshold is the `k`-th one after the start, and xp is
      left below it, so `k` is the most levels the xp could pay for. Every
      level gained adds 20 to both hp and max hp. */
  function SettleLevels(s: Session): (r: Session)
    requires s.xpToNextLevel >= 1
    ensures r.xp < r.xpToNextLevel
    ensures r.level >= s.level && r.xpToNextLevel >= s.xpToNextLevel
    ensures s.xp >= s.xpToNextLevel ==> r.level > s.level
    ensures r.xp == s.xp - Spent(s.xpToNextLevel, r.level - s.level)
    ensures r.xpToNextLevel == ThresholdAfter(s.xpToNextLevel, r.level - s.level)
    ensures r.maxHp == s.maxHp + 20 * (r.level - s.level) && r.hp == s.hp + 20 * (r.level - s.level)
    ensures s.xp >= 0 ==> r.xp >= 0
    ensures s.xp < s.xpToNextLevel ==> r == s
    ensures r == s.(level := r.level, xp := r.xp, xpToNextLevel := r.xpToNextLevel,
                    maxHp := r.maxHp, hp := r.hp)
    decreases s.xp
  {
    if s.xp < s.xpToNextLevel then s else SettleLevels(LevelUp(s))
  }

  /** The wave-end effect: an active wave ends once its kill target is met
      and no mob is left; nothing else changes. */
  function WaveEnd(s: Session): (r: Session)
    ensures !r.waveActive <==> !s.waveActive || (s.mobsKilled >= s.mobsInWave && |s.mobs| == 0)
    ensures r == s.(waveActive := r.waveActive)
  {
    if s.waveActive && s.mobsKilled >= s.mobsInWave && |s.mobs| == 0 then s.(waveActive := false)
    else s
  }

  datatype WaveStart = WaveStart(session: Session, spawnDelays: seq<int>)

  /** The start-wave button is enabled: no wave is running and the
      champion is alive. */
  predicate CanStartWave(s: Session) {
    !s.waveActive && s.hp > 0
  }

  /** Starting the current wave, which only the enabled start-wave button
      does: it becomes active with its target size and no kills, and one
      spawn is scheduled per mob. */
  function StartWave(s: Session): (r: WaveStart)
    requires CanStartWave(s)
    ensures r.session == s.(waveActive := true, mobsInWave := WaveSize(s.wave), mobsKilled := 0)
    ensures s.wave >= 1 ==> |r.spawnDelays| == WaveSize(s.wave)
    ensures r.spawnDelays == SpawnOffsets(WaveSize(s.wave))
    ensures s.wave >= 1 ==> WaveEnd(r.session) == r.session
  {
    WaveStart(s.(waveActive := true, mobsInWave := WaveSize(s.wave), mobsKilled := 0),
              SpawnOffsets(WaveSize(s.wave)))
  }

  /** A scheduled spawn firing: one new mob with the next id joins the end of
      the list. */
  function SpawnMob(s: Session, rKind: real, rSide: real, rCoord: real): (r: Session)
    requires 0.0 <= rKind < 1.0 && 0.0 <= rSide < 1.0 && 0.0 <= rCoord < 1.0
    ensures r == s.(mobs := r.mobs, nextMobId := s.nextMobId + 1)
    ensures |r.mobs| == |s.mobs| + 1 && r.mobs[..|s.mobs|] == s.mobs
    ensures r.mobs[|s.mobs|].id == s.nextMobId && !InCanvas(r.mobs[|s.mobs|].pos)
    ensures r.mobs[|s.mobs|] == Spawn(s.nextMobId, s.wave, rKind, rSide, rCoord)
    ensures r.mobs[|s.mobs|].kind == PickKind(s.wave, rKind)
  {
    var r := s.(mobs := s.mobs + [Spawn(s.nextMobId, s.wave, rKind, rSide, rCoord)],
                nextMobId := s.nextMobId + 1);
    assert r.mobs[..|s.mobs|] == s.mobs;
    r
  }

  /** The shield timer running out, `ShieldDuration` ms after `UseShield`
      raised it: the shield is down and nothing else changes. */
  function ExpireShield(s: Session): (r: Session)
    ensures !r.shieldActive
    ensures r == s.(shieldActive := r.shieldActive)
  {
    s.(shieldActive := false)
  }

  /** The shield timer checked at time `now`: `ShieldDuration` ms after the
      shield was last raised it lowers the shield; before then nothing
      changes. */
  function ShieldTimer(s: Session, now: int): (r: Session)
    ensures now < s.abilities.Get(Shield).lastUsed + ShieldDuration ==> r == s
    ensures now >= s.abilities.Get(Shield).lastUsed + ShieldDuration ==> r == ExpireShield(s)
  {
    if now < s.abilities.Get(Shield).lastUsed + ShieldDuration then s else ExpireShield(s)
  }

  /** A shield raised at `now` is still up `d` ms later exactly when `d` is
      less than `ShieldDuration`. */
  lemma ShieldLasts(s: Session, now: int, d: nat)
    requires Ready(s.abilities, Shield, now)
    ensures ShieldTimer(UseShield(s, now), now + d).shieldActive <==> d < ShieldDuration
  {
  }

  /** The shield's whole effect: while it is up, a mob frame leaves the
      champion's hp alone; once it expires, the attacking mobs' damage lands
      again, floored at 0. */
  lemma ShieldGuardsHp(s: Session, now: int, t: int, dt: real, dists: seq<real>)
    requires DistancesTo(dists, s.mobs, s.pos) && s.hp >= 0
    requires forall i :: 0 <= i < |s.mobs| ==> s.mobs[i].damage >= 0
    requires Ready(s.abilities, Shield, now)
    ensures MobTick(UseShield(s, now), t, dt, dists).hp == s.hp
    ensures MobTick(ExpireShield(UseShield(s, now)), t, dt, dists).hp == Max0(s.hp - AttackDamage(s.mobs, s.pos, t))
  {
    MobTickSettles(ExpireShield(UseShield(s, now)), t, dt, dists);
  }

  /** An unlock button being pressed; a button is shown only for the ability
      on offer. Afterwards nothing is on offer until the next unlock level. */
  function UnlockAbility(s: Session, n: AbilityName): (r: Session)
    requires Offered(s.level, s.abilities, n)
    ensures !CanLevelUp(r.level, r.abilities)
    ensures forall now :: Ready(r.abilities, n, now) <==> !OnCooldown(s.abilities.Get(n), now)
    ensures forall m :: m != n ==> r.abilities.Get(m) == s.abilities.Get(m)
    ensures r == s.(abilities := r.abilities)
  {
    UnlockWithdrawsOffer(s.level, s.abilities, n);
    s.(abilities := Unlock(s.abilities, n))
  }

  // ---------------------------------------------------------------------
  // The session invariant

  /** Every ability keeps the session invariant. */
  lemma ActivatePreservesValid(s: Session, n: AbilityName, now: int, dist: real)
    requires Valid(s) && ActivationDistance(s, n, dist)
    ensures Valid(Activate(s, n, now, dist))
  {
  }

  /** A movement frame keeps the session invariant. */
  lemma MoveTickPreservesValid(s: Session, dt: real, dist: real)
    requires Valid(s) && TargetDistance(s, dist)
    ensures Valid(MoveTick(s, dt, dist))
  {
  }

  /** A mob frame keeps the session invariant: hp stays within 0 and max hp
      and the kill credits never go negative. */
  lemma {:induction false} MobTickPreservesValid(s: Session, now: int, dt: real, dists: seq<real>)
    requires Valid(s) && DistancesTo(dists, s.mobs, s.pos)
    ensures Valid(MobTick(s, now, dt, dists))
  {
    var c := ContactPass(s.mobs, s.pos, s.hp, s.shieldActive, now, dt, dists);
    ContactPassKeepsIdentity(s.mobs, s.pos, s.hp, s.shieldActive, now, dt, dists);
    if !s.shieldActive {
      assert AttackDamage(s.mobs, s.pos, now) >= 0;
    }
    assert c.hp <= s.hp;
    assert MobIdsFresh(c.mobs, s.nextMobId);
    SurvivorsKeepIdsFresh(c.mobs, s.nextMobId);
    SurvivorsExactly(c.mobs);
    var alive := Survivors(c.mobs);
    forall k | 0 <= k < |alive| ensures alive[k].damage >= 0 {
      assert alive[k] in c.mobs;
    }
    TallyAtLeast(Fallen(c.mobs));
  }

  /** A projectile frame keeps the session invariant. */
  lemma ProjectileTickPreservesValid(s: Session, dt: real)
    requires Valid(s)
    ensures Valid(ProjectileTick(s, dt))
  {
    var v := ProjectilePass(s.projectiles, s.mobs, dt);
    ProjectilePassKeepsIdsFresh(s.projectiles, s.mobs, dt, s.nextProjectileId);
    ProjectilePassKeepsDamage(s.projectiles, s.mobs, dt);
    assert ProjectileIdsFresh(v.projectiles, s.nextProjectileId);
    assert forall k :: 0 <= k < |ProjectilePass(s.projectiles, s.mobs, dt).projectiles| ==>
                         ProjectilePass(s.projectiles, s.mobs, dt).projectiles[k].damage >= 0;
    assert forall k :: 0 <= k < |ProjectilePass(s.projectiles, s.mobs, dt).projectiles| ==>
                         ProjectilePass(s.projectiles, s.mobs, dt).projectiles[k].radius >= 0.0;
    SameButHpKeepsMobs(s.mobs, v.mobs, s.nextMobId);
    assert ProjectileTick(s, dt) == s.(projectiles := v.projectiles, mobs := v.mobs);
  }

  /** Changing only hp keeps mob ids fresh and damage non-negative. */
  lemma SameButHpKeepsMobs(before: seq<Mob>, after: seq<Mob>, next: nat)
    requires SameButHp(before, after)
    requires MobIdsFresh(before, next) && forall i :: 0 <= i < |before| ==> before[i].damage >= 0
    ensures MobIdsFresh(after, next) && forall i :: 0 <= i < |after| ==> after[i].damage >= 0
  {
  }

  /** Settling levels keeps the session invariant. */
  lemma SettleLevelsPreservesValid(s: Session)
    requires Valid(s)
    ensures Valid(SettleLevels(s))
  {
  }

  /** Wave bookkeeping, spawning, the shield timer and unlocking keep the
      session invariant. */
  lemma WaveStepsPreserveValid(s: Session, rKind: real, rSide: real, rCoord: real, n: AbilityName)
    requires Valid(s)
    requires 0.0 <= rKind < 1.0 && 0.0 <= rSide < 1.0 && 0.0 <= rCoord < 1.0
    ensures Valid(WaveEnd(s))
    ensures CanStartWave(s) ==> Valid(StartWave(s).session)
    ensures Valid(SpawnMob(s, rKind, rSide, rCoord))
    ensures Valid(ExpireShield(s))
    ensures Offered(s.level, s.abilities, n) ==> Valid(UnlockAbility(s, n))
  {
  }

  // ---------------------------------------------------------------------
  // Scenarios

  /** A slime at full wave-1 health dies to two level-1 basic shots: the
      first leaves it at 8 hp, the second removes it and pays its xp and
      gold once. */
  lemma SlimeDiesToTwoShots(m: Mob, q: Projectile)
    requires m.kind == Slime && m.hp == TypeOf(Slime).hp
    requires q.damage == BasicDamage(1) && Touches(q, m)
    ensures var once := Strike([m], q);
            && once == [m.(hp := 8)]
            && Survivors(once) == once
            && var twice := Strike(once, q);
               && twice == [m.(hp := -4)]
               && Survivors(twice) == []
               && Tally(Fallen(twice)) == Bounty(10, 5, 1)
  {
  }

  /** Wave 1 schedules exactly five spawns 500 ms apart, and starting a wave
      never ends it straight away: it stays active until the kills reach its
      size and the arena is empty. */
  lemma FirstWaveScenario(s: Session)
    requires s.wave >= 1 && CanStartWave(s)
    ensures StartWave(Initial()).spawnDelays == [0, 500, 1000, 1500, 2000]
    ensures WaveEnd(StartWave(s).session).waveActive
    ensures var t := StartWave(s).session;
            forall kills :: !WaveEnd(t.(mobsKilled := kills, mobs := [])).waveActive <==> kills >= WaveSize(s.wave)
  {
  }

  /** A mob that strikes while the shield is up leaves hp alone but still
      stamps its attack time, so once the shield drops it cannot strike
      again before its cooldown has passed. */
  lemma ShieldScenario(m: Mob, player: Vec, hp: int, now: int, later: int, dt: real, dist: real)
    requires IsNorm(dist, Sub(player, m.pos))
    requires InReach(m, player) && CooledDown(m, now)
    requires hp >= 0 && m.damage >= 0
    requires later - now <= TypeOf(m.kind).attackCooldown
    ensures var shielded := ContactPass([m], player, hp, true, now, dt, [dist]);
            && shielded.hp == hp
            && shielded.mobs == [m.(lastAttackTime := now)]
            && ContactPass(shielded.mobs, player, hp, false, later, dt, [dist]).hp == hp
  {
  }

  /** Killing every mob on the field removes them all in one mob frame and
      credits one kill and one wave kill per mob. */
  lemma ClearingTheField(s: Session, now: int, dt: real, dists: seq<real>)
    requires DistancesTo(dists, s.mobs, s.pos)
    requires forall i :: 0 <= i < |s.mobs| ==> s.mobs[i].hp <= 0
    ensures MobTick(s, now, dt, dists).mobs == []
    ensures MobTick(s, now, dt, dists).totalKills == s.totalKills + |s.mobs|
    ensures MobTick(s, now, dt, dists).mobsKilled == s.mobsKilled + |s.mobs|
  {
    var c := ContactPass(s.mobs, s.pos, s.hp, s.shieldActive, now, dt, dists);
    ContactPassKeepsIdentity(s.mobs, s.pos, s.hp, s.shieldActive, now, dt, dists);
    NoSurvivors(c.mobs);
    DeathFilterPartitions(c.mobs);
  }
}

=== FILE: geometry.dfy ===
/** Plane geometry of the arena: vectors, squared distances, the canvas and
    the clamping that keeps the champion's hitbox inside it.

    No square root is ever computed. Where the game needs a Euclidean length
    (to normalise a direction), the caller supplies it together with the
    fact `IsNorm(n, v)`; every distance COMPARISON is done on squared
    distances, which is equivalent because both sides are non-negative. */
module Geometry {

  const CanvasWidth: real := 1200.0
  const CanvasHeight: real := 800.0
  /** Radius of the champion's hitbox; also the clamping margin. */
  const HitboxRadius: real := 32.5

  datatype Vec = Vec(x: real, y: real)

  function Add(a: Vec, b: Vec): Vec {
    Vec(a.x + b.x, a.y + b.y)
  }

  function Sub(a: Vec, b: Vec): Vec {
    Vec(a.x - b.x, a.y - b.y)
  }

  function Scale(a: Vec, k: real): Vec {
    Vec(a.x * k, a.y * k)
  }

  function Norm2(v: Vec): real {
    v.x * v.x + v.y * v.y
  }

  /** Squared Euclidean distance between two points. */
  function Dist2(a: Vec, b: Vec): real {
    Norm2(Sub(a, b))
  }

  /** `n` is the Euclidean length of `v` (what `Math.sqrt` would return). */
  predicate IsNorm(n: real, v: Vec) {
    n >= 0.0 && n * n == Norm2(v)
  }

  /** `dist < r` on true distances, stated on squared distances. */
  predicate Within(a: Vec, b: Vec, r: real) {
    Dist2(a, b) < r * r
  }

  /** `Math.max(lo, Math.min(hi, v))`. */
  function Clamp(v: real, lo: real, hi: real): (r: real)
    requires lo <= hi
    ensures lo <= r <= hi
    ensures lo <= v <= hi ==> r == v
    ensures v < lo ==> r == lo
    ensures hi < v ==> r == hi
  {
    if hi < v then hi else if v < lo then lo else v
  }

  /** The box the champion's centre is kept in. */
  predicate InArena(p: Vec) {
    && HitboxRadius <= p.x <= CanvasWidth - HitboxRadius
    && HitboxRadius <= p.y <= CanvasHeight - HitboxRadius
  }

  /** The visible canvas, edges included. */
  predicate InCanvas(p: Vec) {
    0.0 <= p.x <= CanvasWidth && 0.0 <= p.y <= CanvasHeight
  }

  /** Clamps a point to the canvas minus the hitbox radius on each side. */
  function ClampToArena(p: Vec): (r: Vec)
    ensures InArena(r)
    ensures InArena(p) ==> r == p
  {
    Vec(Clamp(p.x, HitboxRadius, CanvasWidth - HitboxRadius),
        Clamp(p.y, HitboxRadius, CanvasHeight - HitboxRadius))
  }

  /** Clamping one coordinate never moves it away from a point of the range. */
  lemma ClampNonExpansive(v: real, t: real, lo: real, hi: real)
    requires lo <= t <= hi
    ensures (Clamp(v, lo, hi) - t) * (Clamp(v, lo, hi) - t) <= (v - t) * (v - t)
  {
    var c := Clamp(v, lo, hi);
    var a, b := c - t, v - t;
    if v < lo {
      assert b <= a <= 0.0 by { assert c == lo; }
      MulNonneg(-a - b, a - b);
    } else if hi < v {
      assert 0.0 <= a <= b by { assert c == hi; }
      MulNonneg(a + b, b - a);
    }
    assert b * b - a * a == (a + b) * (b - a);
  }

  /** Clamping to the arena never moves a point away from any arena point. */
  lemma ClampToArenaCloser(p: Vec, t: Vec)
    requires InArena(t)
    ensures Dist2(ClampToArena(p), t) <= Dist2(p, t)
  {
    ClampNonExpansive(p.x, t.x, HitboxRadius, CanvasWidth - HitboxRadius);
    ClampNonExpansive(p.y, t.y, HitboxRadius, CanvasHeight - HitboxRadius);
  }

  /** A point on the segment from `a` to `b`: `a + (b - a) * k` with 0 <= k <= 1. */
  function Lerp(a: Vec, b: Vec, k: real): Vec {
    Add(a, Scale(Sub(b, a), k))
  }

  /** Product of two non-negative reals. */
  lemma MulNonneg(x: real, y: real)
    requires x >= 0.0 && y >= 0.0
    ensures x * y >= 0.0
  {
  }

  /** A squared length is never negative. */
  lemma Norm2Nonneg(v: Vec)
    ensures Norm2(v) >= 0.0
  {
  }

  /** Dividing a non-negative quantity by a positive one keeps it non-negative. */
  lemma QuotientNonneg(a: real, b: real)
    requires b > 0.0
    ensures a >= 0.0 ==> a / b >= 0.0
  {
    var q := a / b;
    assert q * b == a;
    if q < 0.0 {
      MulNonneg(-q, b);
      assert (-q) * b == -(q * b);
    }
  }

  /** A coordinate between two values of a range stays in the range. */
  lemma BetweenInRange(a: real, b: real, k: real, lo: real, hi: real)
    requires lo <= a <= hi && lo <= b <= hi
    requires 0.0 <= k <= 1.0
    ensures lo <= a + (b - a) * k <= hi
  {
    assert a + (b - a) * k - lo == (a - lo) * (1.0 - k) + (b - lo) * k;
    MulNonneg(a - lo, 1.0 - k);
    MulNonneg(b - lo, k);
    assert hi - (a + (b - a) * k) == (hi - a) * (1.0 - k) + (hi - b) * k;
    MulNonneg(hi - a, 1.0 - k);
    MulNonneg(hi - b, k);
  }

  /** The arena is convex: a point between two arena points is in the arena. */
  lemma ArenaConvex(a: Vec, b: Vec, k: real)
    requires InArena(a) && InArena(b)
    requires 0.0 <= k <= 1.0
    ensures InArena(Lerp(a, b, k))
  {
    BetweenInRange(a.x, b.x, k, HitboxRadius, CanvasWidth - HitboxRadius);
    BetweenInRange(a.y, b.y, k, HitboxRadius, CanvasHeight - HitboxRadius);
  }

  /** Moving the fraction `k` of the way from `a` to `b` leaves `(1-k)^2` of
      the squared distance to `b`. */
  lemma LerpRemaining(a: Vec, b: Vec, k: real)
    ensures Dist2(Lerp(a, b, k), b) == (1.0 - k) * (1.0 - k) * Dist2(a, b)
  {
    var l := Lerp(a, b, k);
    assert l.x - b.x == (a.x - b.x) * (1.0 - k);
    assert l.y - b.y == (a.y - b.y) * (1.0 - k);
  }

  /** Moving one coordinate from a point `p` of the range part of the way
      toward any value `t` (to `l`), then clamping, never ends farther from
      `t` than the start. */
  lemma ClampTowardCloser(p: real, t: real, k: real, l: real, lo: real, hi: real)
    requires lo <= p <= hi && 0.0 <= k <= 1.0
    requires l == p + (t - p) * k
    ensures (Clamp(l, lo, hi) - t) * (Clamp(l, lo, hi) - t) <= (p - t) * (p - t)
  {
    var c := Clamp(l, lo, hi);
    var a, b := c - t, p - t;
    assert l - t == b * (1.0 - k);
    assert p - l == b * k;
    if b >= 0.0 {
      MulNonneg(b, 1.0 - k);
      MulNonneg(b, k);
      assert 0.0 <= a <= b;
      MulNonneg(a + b, b - a);
    } else {
      MulNonneg(-b, 1.0 - k);
      MulNonneg(-b, k);
      assert b <= a <= 0.0;
      MulNonneg(-a - b, a - b);
    }
    assert b * b - a * a == (a + b) * (b - a);
  }

  /** Moving from an arena point part of the way toward any point, then
      clamping to the arena, never ends farther from that point. */
  lemma ClampedLerpCloser(a: Vec, b: Vec, k: real)
    requires InArena(a) && 0.0 <= k <= 1.0
    ensures Dist2(ClampToArena(Lerp(a, b, k)), b) <= Dist2(a, b)
  {
    var l := Lerp(a, b, k);
    ClampTowardCloser(a.x, b.x, k, l.x, HitboxRadius, CanvasWidth - HitboxRadius);
    ClampTowardCloser(a.y, b.y, k, l.y, HitboxRadius, CanvasHeight - HitboxRadius);
  }

  /** Moving the fraction `k` of the way from `a` to `b`, `dist` apart,
      travels `k * dist` and leaves `dist - k * dist` to go. */
  lemma LerpDistances(a: Vec, b: Vec, k: real, dist: real)
    requires IsNorm(dist, Sub(b, a))
    ensures Dist2(Lerp(a, b, k), a) == (k * dist) * (k * dist)
    ensures Dist2(Lerp(a, b, k), b) == (dist - k * dist) * (dist - k * dist)
  {
    var l := Lerp(a, b, k);
    var dx, dy := b.x - a.x, b.y - a.y;
    assert dist * dist == dx * dx + dy * dy;
    assert l.x - a.x == dx * k && l.y - a.y == dy * k;
    assert Dist2(l, a) == k * k * (dx * dx + dy * dy);
    assert l.x - b.x == -(dx * (1.0 - k)) && l.y - b.y == -(dy * (1.0 - k));
    assert Dist2(l, b) == (1.0 - k) * (1.0 - k) * (dx * dx + dy * dy);
    assert (1.0 - k) * (1.0 - k) * (dist * dist) == (dist - k * dist) * (dist - k * dist);
  }

  /** A point part of the way from `a` to `b` is no farther from `b` than `a`. */
  lemma LerpCloser(a: Vec, b: Vec, k: real)
    requires 0.0 <= k <= 1.0
    ensures Dist2(Lerp(a, b, k), b) <= Dist2(a, b)
  {
    LerpRemaining(a, b, k);
    MulNonneg(1.0 - k, k);
    assert (1.0 - k) * (1.0 - k) == (1.0 - k) - (1.0 - k) * k;
    Norm2Nonneg(Sub(a, b));
    MulNonneg(1.0 - (1.0 - k) * (1.0 - k), Dist2(a, b));
  }
}

=== FILE: mobtypes.dfy ===
/** The four mob archetypes and the per-wave scaling of their stats.

    An archetype is read-only configuration shared by every mob of that
    kind; a mob stores its `MobKind` and looks the archetype up. Colours and
    names are presentation only and are not modelled. */
module MobTypes {

  import Geometry

  datatype MobKind = Slime | Goblin | Orc | Demon

  datatype Archetype = Archetype(
    radius: real,
    speed: real,
    hp: int,
    damage: int,
    attackRange: real,
    attackCooldown: int,
    xp: int,
    gold: int)

  /** The `MOB_TYPES` table. */
  function TypeOf(k: MobKind): Archetype {
    match k
    case Slime  => Archetype(25.0, 100.0, 20, 8, 40.0, 1200, 10, 5)
    case Goblin => Archetype(28.0, 130.0, 35, 12, 45.0, 1000, 15, 10)
    case Orc    => Archetype(35.0, 80.0, 80, 20, 50.0, 1500, 30, 20)
    case Demon  => Archetype(40.0, 150.0, 120, 30, 55.0, 800, 50, 50)
  }

  /** Every archetype has positive size, speed, reach and rewards. */
  lemma ArchetypesWellFormed(k: MobKind)
    ensures TypeOf(k).radius > 0.0 && TypeOf(k).speed > 0.0
    ensures TypeOf(k).hp > 0 && TypeOf(k).damage > 0
    ensures TypeOf(k).attackRange > 0.0 && TypeOf(k).attackCooldown > 0
    ensures TypeOf(k).xp > 0 && TypeOf(k).gold > 0
  {
  }

  /** `Math.round` on an exact real: the nearest integer, halves rounded up. */
  function Round(x: real): (r: int)
    ensures r as real - 0.5 <= x < r as real + 0.5
  {
    (x + 0.5).Floor
  }

  /** Stat multiplier of a wave: 1 at wave 1, plus 0.15 per further wave. */
  function WaveMultiplier(wave: int): real {
    1.0 + (wave - 1) as real * 0.15
  }

  /** A base stat scaled for a wave and rounded. From wave 1 on it is never
      below the base stat, and at wave 1 it is the base stat itself. */
  function ScaleStat(base: int, wave: int): (r: int)
    ensures wave == 1 ==> r == base
    ensures wave >= 1 && base >= 0 ==> r >= base
    ensures r as real - 0.5 <= base as real * WaveMultiplier(wave) < r as real + 0.5
  {
    var scaled := base as real * WaveMultiplier(wave);
    assert wave >= 1 && base >= 0 ==> scaled >= base as real by {
      if wave >= 1 && base >= 0 {
        assert scaled - base as real == base as real * ((wave - 1) as real * 0.15);
        Geometry.MulNonneg(base as real, (wave - 1) as real * 0.15);
      }
    }
    Round(scaled)
  }

  /** Scaling never lowers a stat as the wave number grows. */
  lemma ScaleStatMonotone(base: int, w1: int, w2: int)
    requires base >= 0 && w1 <= w2
    ensures ScaleStat(base, w1) <= ScaleStat(base, w2)
  {
    var a := base as real * WaveMultiplier(w1);
    var b := base as real * WaveMultiplier(w2);
    assert b - a == base as real * ((w2 - w1) as real * 0.15);
    Geometry.MulNonneg(base as real, (w2 - w1) as real * 0.15);
    assert a + 0.5 <= b + 0.5;
  }
}

=== FILE: movement.dfy ===
/** Movement: the champion's click-to-move frame step, the dash landing
    point, and a mob's advance toward the champion. */
module Movement {

  import opened Options
  import opened Geometry
  import Abilities

  /** Champion speed in canvas units per second. */
  const MoveSpeed: real := 350.0
  /** Within this distance of its target the champion has arrived. */
  const ArrivalRadius: real := 5.0

  /** A length whose square is at least some positive `rr` is positive. */
  lemma NormPositive(n: real, v: Vec, rr: real)
    requires IsNorm(n, v) && rr > 0.0 && Norm2(v) >= rr
    ensures n > 0.0
  {
    assert n * n > 0.0;
  }

  /** Fraction of the remaining way covered in one frame,
      `min(moveDistance / distance, 1)`: at most the whole way. */
  function StepRatio(dt: real, dist: real): (k: real)
    requires dist > 0.0
    ensures k <= 1.0
    ensures dt >= 0.0 ==> 0.0 <= k
    ensures k == 1.0 <==> MoveSpeed * dt >= dist
    ensures k < 1.0 ==> k * dist == MoveSpeed * dt
  {
    var m := MoveSpeed * dt / dist;
    assert m * dist == MoveSpeed * dt;
    assert m >= 1.0 <==> MoveSpeed * dt >= dist by {
      if m >= 1.0 {
        MulNonneg(m - 1.0, dist);
        assert (m - 1.0) * dist == m * dist - dist;
      } else {
        MulNonneg(1.0 - m, dist);
        assert (1.0 - m) * dist == dist - m * dist;
        assert (1.0 - m) * dist != 0.0;
      }
    }
    QuotientNonneg(MoveSpeed * dt, dist);
    if m < 1.0 then m else 1.0
  }

  datatype Motion = Motion(pos: Vec, target: Option<Vec>)

  /** One frame of click-to-move toward `target`, `dist` being the current
      distance to it. Inside the arrival radius the target is dropped and the
      champion stays put; otherwise the champion moves the fraction
      `StepRatio` of the way and is clamped to the arena, keeping the target.
      Between two arena points, a frame too short to arrive travels exactly
      `MoveSpeed * dt` along the line, unclamped. */
  function MoveStep(pos: Vec, target: Vec, dt: real, dist: real): (r: Motion)
    requires IsNorm(dist, Sub(target, pos))
    ensures Within(target, pos, ArrivalRadius) ==> r == Motion(pos, None)
    ensures !Within(target, pos, ArrivalRadius) ==> r.target == Some(target) && InArena(r.pos)
    ensures && !Within(target, pos, ArrivalRadius) && dt >= 0.0 && MoveSpeed * dt < dist
            && InArena(pos) && InArena(target)
            ==> && Dist2(r.pos, pos) == (MoveSpeed * dt) * (MoveSpeed * dt)
                && Dist2(r.pos, target) == (dist - MoveSpeed * dt) * (dist - MoveSpeed * dt)
  {
    if Within(target, pos, ArrivalRadius) then Motion(pos, None)
    else
      NormPositive(dist, Sub(target, pos), ArrivalRadius * ArrivalRadius);
      var k := StepRatio(dt, dist);
      var l := Lerp(pos, target, k);
      var step := MoveSpeed * dt;
      assert dt >= 0.0 && step < dist && InArena(pos) && InArena(target) ==>
               && ClampToArena(l) == l
               && Dist2(l, pos) == step * step
               && Dist2(l, target) == (dist - step) * (dist - step) by {
        if dt >= 0.0 && step < dist && InArena(pos) && InArena(target) {
          Stride(pos, target, dt, dist);
        }
      }
      Motion(ClampToArena(l), Some(target))
  }

  /** How far one frame carries the champion from inside the arena, for any
      target, including a click in the margin outside the arena: never more
      than `MoveSpeed * dt`, and exactly that when the frame is too short to
      arrive and the unclamped point is still inside the arena. */
  lemma MoveStepTravel(pos: Vec, target: Vec, dt: real, dist: real)
    requires IsNorm(dist, Sub(target, pos))
    ensures !Within(target, pos, ArrivalRadius) && dt >= 0.0 && InArena(pos) ==>
              Dist2(MoveStep(pos, target, dt, dist).pos, pos) <= (MoveSpeed * dt) * (MoveSpeed * dt)
    ensures && !Within(target, pos, ArrivalRadius) && dt >= 0.0 && InArena(pos) && dist > 0.0
            && MoveSpeed * dt < dist && InArena(Lerp(pos, target, StepRatio(dt, dist)))
            ==> Dist2(MoveStep(pos, target, dt, dist).pos, pos) == (MoveSpeed * dt) * (MoveSpeed * dt)
  {
    if !Within(target, pos, ArrivalRadius) && dt >= 0.0 && InArena(pos) {
      NormPositive(dist, Sub(target, pos), ArrivalRadius * ArrivalRadius);
      var k := StepRatio(dt, dist);
      var l := Lerp(pos, target, k);
      assert MoveStep(pos, target, dt, dist).pos == ClampToArena(l);
      TravelBounded(pos, target, dt, dist);
      if MoveSpeed * dt < dist && InArena(l) {
        LerpDistances(pos, target, k, dist);
      }
    }
  }

  /** Whatever the target, a frame from inside the arena travels at most
      `MoveSpeed * dt`: the lerp covers `min(step, dist)` and the clamp
      toward the arena start only shortens it. */
  lemma TravelBounded(pos: Vec, target: Vec, dt: real, dist: real)
    requires IsNorm(dist, Sub(target, pos)) && dist > 0.0
    requires dt >= 0.0 && InArena(pos)
    ensures Dist2(ClampToArena(Lerp(pos, target, StepRatio(dt, dist))), pos)
              <= (MoveSpeed * dt) * (MoveSpeed * dt)
  {
    var k := StepRatio(dt, dist);
    var l := Lerp(pos, target, k);
    var step := MoveSpeed * dt;
    ClampToArenaCloser(l, pos);
    LerpDistances(pos, target, k, dist);
    if k == 1.0 {
      assert dist <= step;
      MulNonneg(step - dist, step + dist);
      assert (step - dist) * (step + dist) == step * step - dist * dist;
    }
  }

  /** A frame too short to arrive, between two arena points, stays on the
      segment and inside the arena, travelling exactly `MoveSpeed * dt`. */
  lemma Stride(pos: Vec, target: Vec, dt: real, dist: real)
    requires IsNorm(dist, Sub(target, pos)) && dist > 0.0
    requires dt >= 0.0 && MoveSpeed * dt < dist && InArena(pos) && InArena(target)
    ensures var l := Lerp(pos, target, StepRatio(dt, dist));
            && ClampToArena(l) == l
            && Dist2(l, pos) == (MoveSpeed * dt) * (MoveSpeed * dt)
            && Dist2(l, target) == (dist - MoveSpeed * dt) * (dist - MoveSpeed * dt)
  {
    var k := StepRatio(dt, dist);
    ArenaConvex(pos, target, k);
    LerpDistances(pos, target, k, dist);
  }

  /** A frame never carries the champion farther from its target when it
      starts inside the arena, wherever the target is: the clamp only pulls
      a coordinate back toward the range the champion started in. When the
      target is an arena point and the frame's travel covers the whole
      distance, the champion lands exactly on it. */
  lemma MoveStepNeverOvershoots(pos: Vec, target: Vec, dt: real, dist: real)
    requires IsNorm(dist, Sub(target, pos))
    ensures dt >= 0.0 && (InArena(pos) || InArena(target)) ==>
              Dist2(MoveStep(pos, target, dt, dist).pos, target) <= Dist2(pos, target)
    ensures && dt >= 0.0 && InArena(target) && !Within(target, pos, ArrivalRadius)
            && MoveSpeed * dt >= dist
            ==> MoveStep(pos, target, dt, dist).pos == target
  {
    if dt >= 0.0 && !Within(target, pos, ArrivalRadius) {
      NormPositive(dist, Sub(target, pos), ArrivalRadius * ArrivalRadius);
      var k := StepRatio(dt, dist);
      var l := Lerp(pos, target, k);
      if InArena(pos) {
        ClampedLerpCloser(pos, target, k);
      }
      if InArena(target) {
        LerpCloser(pos, target, k);
        ClampToArenaCloser(l, target);
        if MoveSpeed * dt >= dist {
          assert k == 1.0;
          assert l == target;
        }
      }
    }
  }

  /** The dash landing point before clamping: at most `DashDistance` along
      the line to the target; a zero-length dash stays in place. A longer
      dash stops `DashDistance` from the start and `dist - DashDistance`
      short of the target. */
  function DashLanding(pos: Vec, target: Vec, dist: real): (r: Vec)
    requires IsNorm(dist, Sub(target, pos))
    ensures dist <= Abilities.DashDistance ==> r == target
    ensures dist > Abilities.DashDistance ==>
              && Dist2(r, pos) == Abilities.DashDistance * Abilities.DashDistance
              && Dist2(r, target) == (dist - Abilities.DashDistance) * (dist - Abilities.DashDistance)
  {
    if dist == 0.0 then target  // already on the target
    else
      var reach := if dist < Abilities.DashDistance then dist else Abilities.DashDistance;
      var k := reach / dist;
      var r := Lerp(pos, target, k);
      assert k * dist == reach;
      LerpDistances(pos, target, k, dist);
      r
  }

  /** A mob's advance: it moves `speed * dt` along the line to `goal`, `dist`
      being its current positive distance to `goal`, and is left
      `dist - speed * dt` from it (negative when it passes the goal). */
  function Approach(pos: Vec, goal: Vec, speed: real, dt: real, dist: real): (r: Vec)
    requires IsNorm(dist, Sub(goal, pos)) && dist > 0.0
    ensures Dist2(r, pos) == (speed * dt) * (speed * dt)
    ensures Dist2(r, goal) == (dist - speed * dt) * (dist - speed * dt)
  {
    var k := speed * dt / dist;
    assert k * dist == speed * dt;
    LerpDistances(pos, goal, k, dist);
    Lerp(pos, goal, k)
  }
}

=== FILE: options.dfy ===
/** The optional value used for "no target" and "no hit". */
module Options {

  datatype Option<+T> = None | Some(value: T)
}

=== FILE: targeting.dfy ===
/** Auto-aim: the linear scan for the mob nearest to the champion. */
module Targeting {

  import opened Options
  import opened Geometry
  import opened Entities

  /** `i` is the first index holding a minimum of the squared distance to `p`. */
  ghost predicate FirstNearest(mobs: seq<Mob>, p: Vec, i: nat) {
    && i < |mobs|
    && (forall j :: 0 <= j < |mobs| ==> Dist2(mobs[i].pos, p) <= Dist2(mobs[j].pos, p))
    && (forall j :: 0 <= j < i ==> Dist2(mobs[i].pos, p) < Dist2(mobs[j].pos, p))
  }

  /** The scan over the mob list: a mob replaces the current best only when it
      is strictly closer, so among equally near mobs the first one wins. An
      empty list gives no target. */
  function Nearest(mobs: seq<Mob>, p: Vec): (r: Option<nat>)
    ensures r.None? <==> |mobs| == 0
    ensures r.Some? ==> FirstNearest(mobs, p, r.value)
    decreases |mobs|
  {
    if |mobs| == 0 then None
    else
      var last := |mobs| - 1;
      match Nearest(mobs[..last], p)
      case None => Some(0)
      case Some(k) =>
        if Dist2(mobs[last].pos, p) < Dist2(mobs[k].pos, p) then Some(last) else Some(k)
  }

  /** The first nearest mob is unique, so the scan's answer is the only one. */
  lemma FirstNearestUnique(mobs: seq<Mob>, p: Vec, i: nat, j: nat)
    requires FirstNearest(mobs, p, i) && FirstNearest(mobs, p, j)
    ensures i == j
  {
    var di, dj := Dist2(mobs[i].pos, p), Dist2(mobs[j].pos, p);
    assert di <= dj && dj <= di;
  }

  /** Any index that is a first nearest mob is the one the scan returns. */
  lemma NearestIsTheFirstNearest(mobs: seq<Mob>, p: Vec, i: nat)
    requires FirstNearest(mobs, p, i)
    ensures Nearest(mobs, p) == Some(i)
  {
    var r := Nearest(mobs, p);
    FirstNearestUnique(mobs, p, r.value, i);
  }
}

=== FILE: waves.dfy ===
/** Waves: how many mobs a wave has, when they are spawned, which archetype
    each one gets and where on the canvas edge it appears. The random numbers
    the game draws are parameters, each in [0, 1). */
module Waves {

  import opened Geometry
  import opened MobTypes
  import opened Entities

  /** Delay between two consecutive spawns of a wave, in milliseconds. */
  const SpawnInterval: int := 500
  /** How far outside the canvas a mob appears. */
  const SpawnMargin: real := 50.0

  /** Mobs in a wave: 5, plus 3 for every wave after the first. */
  function WaveSize(wave: int): (n: int)
    ensures wave >= 1 ==> n >= 5
    ensures wave == 1 ==> n == 5
  {
    5 + (wave - 1) * 3
  }

  /** Each wave brings three more mobs than the one before. */
  lemma WaveSizeGrows(wave: int)
    ensures WaveSize(wave + 1) == WaveSize(wave) + 3
  {
  }

  /** The spawn delays of a wave of `n` mobs: one per mob, the first at once
      and each next one `SpawnInterval` later. A non-positive count
      schedules nothing. */
  function SpawnOffsets(n: int): (r: seq<int>)
    ensures |r| == if n > 0 then n else 0
    ensures |r| > 0 ==> r[0] == 0
    ensures forall i :: 0 < i < |r| ==> r[i] - r[i - 1] == SpawnInterval
  {
    seq(if n > 0 then n else 0, i => i * SpawnInterval)
  }

  /** The schedule is strictly increasing: no two mobs spawn at once. */
  lemma {:induction false} SpawnOffsetsIncreasing(n: int, i: int, j: int)
    requires 0 <= i < j < |SpawnOffsets(n)|
    ensures SpawnOffsets(n)[i] < SpawnOffsets(n)[j]
    decreases j - i
  {
    var r := SpawnOffsets(n);
    if i + 1 < j {
      SpawnOffsetsIncreasing(n, i, j - 1);
    }
    assert r[j] - r[j - 1] == SpawnInterval;
  }

  /** The archetype for a spawn, tiered by wave, from one random draw.
      Waves 1-2 spawn only slimes; up to wave 10 no demon appears; after
      wave 10 no slime appears. */
  function PickKind(wave: int, rand: real): (k: MobKind)
    requires 0.0 <= rand < 1.0
    ensures wave <= 2 ==> k == Slime
    ensures wave <= 10 ==> k != Demon
    ensures wave > 10 ==> k != Slime
    ensures 2 < wave <= 5 ==> (k == Slime <==> rand < 0.6) && (k == Goblin <==> rand >= 0.6)
    ensures 5 < wave <= 10 ==> (k == Slime <==> rand < 0.4) && (k == Orc <==> rand >= 0.8)
    ensures wave > 10 ==> (k == Goblin <==> rand < 0.3) && (k == Demon <==> rand >= 0.6)
  {
    if wave <= 2 then Slime
    else if wave <= 5 then (if rand < 0.6 then Slime else Goblin)
    else if wave <= 10 then (if rand < 0.4 then Slime else if rand < 0.8 then Goblin else Orc)
    else if rand < 0.3 then Goblin
    else if rand < 0.6 then Orc
    else Demon
  }

  /** The edge a mob enters from: 0 top, 1 right, 2 bottom, 3 left, the
      integer part of four times the draw. */
  function Side(rSide: real): (side: int)
    requires 0.0 <= rSide < 1.0
    ensures 0 <= side < 4
    ensures side as real <= rSide * 4.0 < side as real + 1.0
  {
    (rSide * 4.0).Floor
  }

  /** Where a mob appears: `SpawnMargin` beyond one canvas edge, at a random
      place along it. Each quarter of the side draw picks one edge (top,
      right, bottom, left) and the coordinate draw scales the edge's length.
      The point is always outside the canvas. */
  function SpawnPoint(rSide: real, rCoord: real): (p: Vec)
    requires 0.0 <= rSide < 1.0 && 0.0 <= rCoord < 1.0
    ensures !InCanvas(p)
    ensures p.y == -SpawnMargin || p.x == CanvasWidth + SpawnMargin
            || p.y == CanvasHeight + SpawnMargin || p.x == -SpawnMargin
    ensures (0.0 <= p.x < CanvasWidth) || (0.0 <= p.y < CanvasHeight)
    ensures p.y == -SpawnMargin <==> rSide < 0.25
    ensures p.x == CanvasWidth + SpawnMargin <==> 0.25 <= rSide < 0.5
    ensures p.y == CanvasHeight + SpawnMargin <==> 0.5 <= rSide < 0.75
    ensures p.x == -SpawnMargin <==> 0.75 <= rSide
    ensures rSide < 0.25 || 0.5 <= rSide < 0.75 ==> p.x == rCoord * CanvasWidth
    ensures 0.25 <= rSide < 0.5 || 0.75 <= rSide ==> p.y == rCoord * CanvasHeight
  {
    match Side(rSide)
    case 0 => Vec(rCoord * CanvasWidth, -SpawnMargin)
    case 1 => Vec(CanvasWidth + SpawnMargin, rCoord * CanvasHeight)
    case 2 => Vec(rCoord * CanvasWidth, CanvasHeight + SpawnMargin)
    case _ => Vec(-SpawnMargin, rCoord * CanvasHeight)
  }

  /** A freshly spawned mob: archetype chosen for the wave, placed off the
      canvas, at full scaled health, with the wave's scaled damage and no
      attack yet. */
  function Spawn(id: nat, wave: int, rKind: real, rSide: real, rCoord: real): (m: Mob)
    requires 0.0 <= rKind < 1.0 && 0.0 <= rSide < 1.0 && 0.0 <= rCoord < 1.0
    ensures m.id == id && m.kind == PickKind(wave, rKind)
    ensures !InCanvas(m.pos)
    ensures m.hp == m.maxHp && m.lastAttackTime == 0
    ensures wave >= 1 ==> m.hp >= TypeOf(m.kind).hp > 0 && m.damage >= TypeOf(m.kind).damage > 0
    ensures wave == 1 ==> m.hp == TypeOf(m.kind).hp && m.damage == TypeOf(m.kind).damage
    ensures m.pos == SpawnPoint(rSide, rCoord)
    ensures m.hp == ScaleStat(TypeOf(m.kind).hp, wave) && m.damage == ScaleStat(TypeOf(m.kind).damage, wave)
    ensures m.hp as real - 0.5 <= TypeOf(m.kind).hp as real * WaveMultiplier(wave) < m.hp as real + 0.5
  {
    var kind := PickKind(wave, rKind);
    var hp := ScaleStat(TypeOf(kind).hp, wave);
    ArchetypesWellFormed(kind);
    Mob(id, SpawnPoint(rSide, rCoord), kind, hp, hp, ScaleStat(TypeOf(kind).damage, wave), 0)
  }
}
